=== FILE: README.md ===
# jinja2_eval_web, modelled in Dafny

jinja2_eval_web is a small single-user web tool for trying Jinja2 templates. A browser page
posts an input document (JSON, or YAML as a fallback) and a template. The server renders the
template with the parsed document bound as `data` and returns the output. Output that parses
as JSON comes back pretty-printed and tagged `json`; anything else comes back tagged `string`.

Every successful render is appended to a bounded history file. The `input` and `expr`
fields of an entry hold Base64 of the submitted text's UTF-8 bytes. The bound is
`history.max_entries` from an INI settings file; the settings can be read and written over
HTTP.

The current revision also serves a directory of example input files. It lists the regular
files and serves one by name, behind a syntactic filename gate and a canonical-path
containment check. An older revision of the same handler (`tests/jinja2_eval_web.py`)
parses JSON only and has no file routes.

The model is a set of pure functions over an immutable server state.

- `Server.Handle` takes the environment, the state, a request and the clock reading.
  It returns the next state and the reply.
- The environment holds the revision flag (`Render.Variant`), the script directory, the
  parsers and template engine, and the filesystem. The parsers, the engine and the
  filesystem are function-valued fields.
- `Router.Route` is the dispatch if-chain. `Router.Table` is the table it is proved equal to.
- The handlers live in these modules:
  - `History`: bounded append, clear, listing.
  - `Config`: settings read and write, and how a write moves the bound.
  - `Fixtures`: file listing and file serving.
  - `Render`: format detection, evaluation, output classification.
- Supporting modules model the library behaviour the handlers depend on:
  - `Integers`: Python `int()` and `str()`.
  - `Base64`: section 4 of RFC 4648.
  - `Utf8`: strict UTF-8.
  - `Paths`: POSIX `os.path.join`/`basename`.
  - `Sorting`: lexicographic sort of names.
  - `Strings`: substring search.
  - `Requests`: request parameters.

## Model

| member | source | states |
|---|---|---|
| Router.Route | jinja2_eval_web.py:69-266 | The if-chains of `do_GET` and `do_POST`, path by path in the source's order. Their properties are stated by Router.RouteIsTable, Router.WrongMethodNotFound and Router.VariantsRouteAlike. |
| Server.Handle | jinja2_eval_web.py:69-266 | One request: route it, run its handler, return the next state and the reply. Its properties are stated by the Server lemmas below, among them Server.ReadsLeaveStateAlone, Server.UnknownRouteIs404 and Server.ReadAfterWrite. |
| Server.RenderStep | jinja2_eval_web.py:268-325 | `POST /render`: on success, record the entry and answer 200 with the tags; otherwise answer 400. Its properties are stated by Server.RenderRecordsIffSuccess, Server.RenderTags and Server.RenderedEntryListsBack. |
| Router.RouteIsTable | jinja2_eval_web.py:69-266 | The dispatch chain of `do_GET`/`do_POST` equals the route table. A listed (method, path) reaches its handler, and a request reaches `NotFound` exactly when it is not in the table. |
| Router.WrongMethodNotFound | jinja2_eval_web.py:199-201 | Apart from `/settings`, which both methods serve, a path is served by one method only. `GET /render`, `GET /history/clear`, `POST /`, `POST /history`, `POST /input-files` and an unknown path such as `GET /invalid_path` reach no handler (jinja2_eval_web.py:264-265 for POST). |
| Router.VariantsRouteAlike | tests/jinja2_eval_web.py:64-183 | The older revision routes every request the way the current one does, except `GET /input-files` and `GET /input-file-content`, which it lacks. The two revisions differ exactly on those two. |
| Server.ReadsLeaveStateAlone | jinja2_eval_web.py:69-204 | No GET request, and no request that matches no route, changes the settings, the bound or the history. |
| Server.UnknownRouteIs404 | jinja2_eval_web.py:199-201 | A GET or POST whose (method, path) is outside the route table is answered 404 (jinja2_eval_web.py:264-265 for POST). |
| Server.Start | jinja2_eval_web.py:29-43 | Start-up keeps the history file and uses the settings file when one exists, else the defaults. Without `history.max_entries` in those settings the bound is 1000. With it, start-up succeeds exactly when `int()` accepts the value, and the bound is that integer. |
| Server.FirstStart | jinja2_eval_web.py:29-43 | With no settings file, the settings are the defaults and the bound is 1000. The older revision writes only `history.max_entries = 1000` (tests/jinja2_eval_web.py:28-38). |
| Server.RenderRecordsIffSuccess | jinja2_eval_web.py:268-325 | A render answers 200 exactly when parsing and evaluation both succeed, and then it records the entry under the current bound. Otherwise it answers 400 and leaves the state unchanged. |
| Server.RenderedEntryListsBack | jinja2_eval_web.py:301-319 | After a successful render with bound >= 1, the history fits the bound. Its newest entry lists back as exactly the submitted input and template, with the render's timestamp. |
| Server.RenderTags | jinja2_eval_web.py:294-299 | `X-Result-Type` is `json` exactly when the evaluated output parses as JSON. The reply is then that JSON re-serialised, and otherwise the evaluated output itself. `X-Input-Format` is sent only by the current revision (tests/jinja2_eval_web.py:198-203 sends none), and it is the detected format. |
| Server.VariantsAgreeOutsideRender | tests/jinja2_eval_web.py:64-183 | Both revisions answer every request other than `/render` and the file routes identically, in both state and reply. |
| Server.RenderThenList | tests/test_jinja_2_eval_web.py:58-67 | After a successful render into an empty history, `GET /history` lists exactly one entry holding the submitted input and template. |
| Server.MaxSizeFollowsSettings | tests/test_jinja_2_eval_web.py:94-105 | Writing `history.max_entries = str(n)` through `POST /settings` makes `GET /history/maxsize` report `n`. |
| Server.ReadAfterWrite | tests/test_jinja_2_eval_web.py:106-111 | After `POST /settings` names a section, `GET /settings?section=` that section answers 200 with the merged section. It holds every posted key with its posted value. |
| Server.MissingSectionRefused | jinja2_eval_web.py:239-244 | `POST /settings` with a missing or empty section answers 400 "Missing section parameter". Settings, bound and history are left as they were. |
| Server.SettingsMoveBound | jinja2_eval_web.py:239-261 | A settings write that names a section leaves the server with the bound the write computed. |
| Server.MaxSizeReportsBound | jinja2_eval_web.py:106-109 | `GET /history/maxsize` reports the bound in force. |
| Server.ClearWithoutCount | jinja2_eval_web.py:214-237 | `POST /history/clear` without a count reports the old size as cleared, reports size 0, and leaves an empty history. |
| History.Size | jinja2_eval_web.py:96-104 | `GET /history/size`: the length of the loaded history, an unreadable file counting as empty. History.List states the listing has that length, and Server.ClearWithoutCount that clearing reports it. |
| History.SliceFrom | jinja2_eval_web.py:229 | Python's `xs[k:]` for every integer `k`. The result is a suffix of `xs`. A negative `k` keeps the last `min(-k, len)` items; a non-negative `k` drops the first `min(k, len)`. |
| History.Append | jinja2_eval_web.py:314-315 | `hist.append(e); hist[-bound:]`. With bound >= 1 the result has `min(len+1, bound)` entries, ends with `e`, and is the tail of `h + [e]`. With bound 0 nothing is trimmed. With a negative bound `-k`, `hist[k:]` drops the first `k` entries, so the result has `max(len + 1 - k, 0)` entries and is still a tail of `h + [e]`. |
| History.NegativeBoundLosesEntry | jinja2_eval_web.py:315 | Under `max_entries = -1`, a render into an empty history records nothing: even the new entry is dropped. |
| History.Record | jinja2_eval_web.py:309-317 | Recording loads the store (an unreadable file counts as empty), appends and trims, and writes back a readable list. Under a bound B >= 1 the list holds at most B entries and ends with the new one; under bound 0 it is the old list plus the new entry. |
| History.AppendKeepsNewest | jinja2_eval_web.py:314-315 | Under a bound B >= 1, one append keeps exactly the newest `min(len + 1, B)` entries of `h + [e]`, the old history followed by the new entry. |
| History.RecordFromEmpty | jinja2_eval_web.py:314-315 | Recording N entries one by one into an empty history under bound B >= 1 leaves exactly the newest `min(N, B)` of them, oldest first. |
| History.RecordAllKeepsNewest | jinja2_eval_web.py:314-315 | Recording a run onto the newest entries of an earlier run keeps the newest entries of the whole run. This makes bounded recording insensitive to how the stream is split. |
| History.AppendNewest | jinja2_eval_web.py:314-315 | One append onto the newest `bound` entries gives the newest `bound` entries of the longer run. |
| History.ZeroBoundKeepsAll | jinja2_eval_web.py:315 | Under `max_entries = 0`, `hist[-0:]` keeps everything, so the history grows without limit. |
| History.FieldRoundTrip | jinja2_eval_web.py:306-307 | A stored field (Base64 of UTF-8) decodes back (jinja2_eval_web.py:85-89) to exactly the submitted text. |
| History.Show | jinja2_eval_web.py:82-92 | A listed entry keeps its timestamp and always carries both text fields. A missing field lists as the empty text. A field that is not Base64 of well-formed UTF-8 lists exactly as stored, since the `except` keeps it. |
| History.DecodeField | jinja2_eval_web.py:85-92 | A field that decodes lists as its decoded text; any other field lists unchanged. |
| History.List | jinja2_eval_web.py:74-104 | `GET /history` lists as many entries as `GET /history/size` reports, from the same file and with the same fallback for an unreadable one. |
| History.ListAt | jinja2_eval_web.py:82-93 | Position `i` of the listing is stored entry `i`, shown: the listing keeps the stored order. |
| History.ListAfterRecord | jinja2_eval_web.py:74-94 | After a render is recorded under a bound B >= 1, `GET /history` lists `min(size + 1, B)` entries. They are the newest part of the listing from before, followed by the new entry with exactly the submitted input and template (jinja2_eval_web.py:301-317). |
| History.ShowRecorded | jinja2_eval_web.py:82-92 | An entry this server recorded is listed with exactly the submitted input and template. |
| History.Clear | jinja2_eval_web.py:214-237 | Clearing leaves a readable history file whenever its write-back succeeds (a failing write-back is not modelled, see Left out). |
| History.ClearAll | jinja2_eval_web.py:222-232 | With no count, or a count `int()` rejects, the history is emptied and the old size is reported as cleared. |
| History.ClearOldest | jinja2_eval_web.py:226-229 | A count `n >= 0` removes exactly the `min(n, size)` oldest entries and reports that number. The survivors keep their order and, together with the removed ones, make up the old history. |
| History.ClearNegativeCount | jinja2_eval_web.py:226-229 | A negative count `n` keeps only the last `min(-n, size)` entries, yet reports `n` itself as cleared. |
| Config.Get | jinja2_eval_web.py:43 | `config.get(section, key, fallback=...)`: the stored value, or the fallback when the section or key is absent. Server.Start states its use at start-up. |
| Config.Read | jinja2_eval_web.py:111-119 | `GET /settings`: a named section reads as its keys (or `{}` when absent); no name reads all sections. Config.ReadAfterWrite and Server.ReadAfterWrite state what a written section reads back as. |
| Config.ReadAfterWrite | jinja2_eval_web.py:111-119 | Reading back a section just written (jinja2_eval_web.py:239-261) gives the merged section, holding every posted key with its posted value. Reading any other named section gives what it gave before the write. |
| Config.Merge | jinja2_eval_web.py:245-250 | A write creates the section if absent and leaves other sections unchanged. Posted keys take their posted values; keys not posted keep their old values; no other key appears. |
| Config.Write | jinja2_eval_web.py:239-261 | A missing or empty section name is refused exactly. Otherwise the section is merged, the bound is refreshed, and the merged section is echoed. |
| Config.WritesAccumulate | jinja2_eval_web.py:245-250 | Two writes to one section accumulate: keys from the first survive unless the second posts them again. `section` itself is never stored by a write. |
| Config.BoundFollowsMaxEntries | jinja2_eval_web.py:253-258 | Writing `history.max_entries` moves the bound to `int(value)` when that parses, and keeps the old bound when `int()` raises. |
| Config.FormattedBoundApplies | jinja2_eval_web.py:253-258 | Writing `str(n)` as `history.max_entries` sets the bound to `n`. |
| Config.OtherSectionsKeepBound | jinja2_eval_web.py:254 | Writes to any other section never move the bound. |
| Fixtures.Resolve | jinja2_eval_web.py:129-131 | A relative configured directory is joined under the script directory. Its properties are stated by Fixtures.ResolvePlacement. |
| Fixtures.ResolvePlacement | jinja2_eval_web.py:129-131 | The resolved directory ends with the configured one. A relative one lands under the script directory; an absolute one is used verbatim. The result is absolute whenever either directory is. |
| Fixtures.RegularFiles | jinja2_eval_web.py:137-141 | The kept names are exactly the listed names that are regular files of the directory. Distinct names stay distinct. |
| Fixtures.ListFiles | jinja2_eval_web.py:121-147 | `GET /input-files` is always sorted. |
| Fixtures.ListFilesContents | jinja2_eval_web.py:137-144 | When the directory lists, the reply holds each regular-file child once and no other name, in ascending order. |
| Fixtures.ListFilesIsTheSortedArrangement | jinja2_eval_web.py:143 | Any sorted rearrangement of the regular files equals the reply, so `files.sort()` is modelled by its full specification. |
| Fixtures.ListFilesEmptyWhenUnavailable | jinja2_eval_web.py:124-147 | No configured directory, a missing one, one that is not a directory, or one that cannot be listed gives `[]`. |
| Fixtures.ReadFile | jinja2_eval_web.py:149-197 | A file is served only when the name is present, passes the gate, and canonicalises strictly inside the canonical root. It must also be an existing regular file, and the reply is exactly its content. Every refusal is 400, 403, 404 or 500. |
| Fixtures.MissingNameFirst | jinja2_eval_web.py:150-153 | The reply is 400 "Missing filename parameter" exactly when the name is missing or empty. |
| Fixtures.NoDirectorySecond | jinja2_eval_web.py:156-159 | With a name but no configured directory, the reply is 404 "Input directory not configured". |
| Fixtures.GateBeforeFilesystem | jinja2_eval_web.py:167-170 | A name the gate refuses gets 403 "Access denied - invalid filename" whatever the filesystem holds. |
| Fixtures.ContainmentBeforeExistence | jinja2_eval_web.py:174-183 | A safe name whose canonical path cannot be resolved, or is not strictly inside the canonical root, gets 403 before existence is checked. |
| Fixtures.EscapingNameRefused | jinja2_eval_web.py:174-180 | A gate-passing name whose canonical path does not start with the canonical root and a separator is refused 403 as a traversal. |
| Fixtures.UnresolvableNameRefused | jinja2_eval_web.py:174-183 | A gate-passing name whose root or candidate cannot be canonicalised is refused 403 as a resolution error. |
| Fixtures.MissingFileLast | jinja2_eval_web.py:185-187 | A contained name that is not an existing regular file gets 404 "File not found". |
| Fixtures.ReadFileServes | jinja2_eval_web.py:189-194 | A name that passes every check is served with exactly the file's content. |
| Fixtures.TraversalNamesRefused | tests/advanced_input_files_test.py:128-140 | The suite's traversal names `../../../etc/passwd` and `....//....//....//etc/passwd`, and `../jinja2_eval_web.py`, are refused with 403 by the gate. |
| Fixtures.DoubleDotRefused | jinja2_eval_web.py:168 | Any name containing `..`, even a harmless `a..json`, is refused by the gate. |
| Fixtures.DotRefused | jinja2_eval_web.py:174-180 | `.` passes the gate but canonicalises to the root itself, which is not strictly inside the root, so the traversal check refuses it. |
| Paths.IsAbs | jinja2_eval_web.py:130 | `os.path.isabs`: the path starts with a separator. Fixtures.ResolvePlacement states its effect. |
| Paths.Join | jinja2_eval_web.py:131 | `os.path.join` of two parts: an absolute second part replaces the first. Fixtures.ResolvePlacement and Paths.SafeNameIsComponent state its effect. |
| Paths.Basename | jinja2_eval_web.py:167 | `os.path.basename` is the part after the last separator. It is a suffix of its argument with no separator, and the character just before it is a separator. A path with no separator is its own base name. |
| Paths.BasenameFixed | jinja2_eval_web.py:167-168 | `basename(f) == f` exactly when `f` holds no `/`. |
| Paths.SafeName | jinja2_eval_web.py:167-168 | The filename gate. Paths.SafeNameIff states exactly what it accepts. |
| Paths.SafeNameIff | jinja2_eval_web.py:168 | The gate accepts a name exactly when it has no `/`, no `\` and no `..` substring. |
| Paths.SafeNameIsComponent | jinja2_eval_web.py:168-172 | A name that passes the gate is one path component. Joining it appends it below the directory. |
| Render.ParseInput | jinja2_eval_web.py:271-289 | Text JSON accepts is always JSON-tagged with JSON's value. A YAML tag only ever comes from the current revision after JSON refused the text. |
| Render.FormatDecision | jinja2_eval_web.py:271-289 | The format outcome against the two parsers. `JSON` exactly when JSON accepts. `YAML` exactly when the revision is current, JSON refuses and YAML accepts (a null document included). A failure exactly otherwise. |
| Render.YamlNullIsEmptyMapping | jinja2_eval_web.py:279-281 | A YAML null document, such as empty input, becomes the empty mapping. |
| Render.BothRefusedNamesBoth | jinja2_eval_web.py:282-285 | Text both parsers refuse gets a 400 message that contains "tried JSON and YAML". |
| Render.SnapshotIsJsonOnly | tests/jinja2_eval_web.py:188-193 | The older revision refuses every text JSON refuses, with "JSON parsing error: " and the JSON error. |
| Render.Normalize | jinja2_eval_web.py:294-299 | Output classification: re-serialised JSON tagged `json` when the output parses, else the output tagged `string`. Render.Run and Server.RenderTags state it. |
| Render.Run | jinja2_eval_web.py:291-325 | A render succeeds exactly when parsing and evaluation succeed. It keeps the detected format and tags the output as JSON exactly when the evaluated text parses. A JSON-tagged reply is the parsed value re-serialised; a string-tagged one is the evaluated text. |
| Integers.ParseInt | jinja2_eval_web.py:43 | Python `int()` on ASCII text: surrounding whitespace (tab through carriage return, and space), an optional sign, decimal digits. Its properties are stated by Integers.ParseFormatRoundTrip, Integers.BlankRejected, Integers.SpacesAroundIgnored, Integers.SeparatorRejected and Integers.ThousandParses. |
| Integers.FormatInt | jinja2_eval_web.py:256 | Python `str()` on an integer. Integers.ParseFormatRoundTrip states that `int()` reads it back. |
| Integers.ParseFormatRoundTrip | jinja2_eval_web.py:256 | `int(str(n)) == n`, so a bound written as text is read back unchanged. The model places no limit on the number of digits. |
| Integers.ThousandParses | jinja2_eval_web.py:43 | The fallback `'1000'` parses to 1000. |
| Integers.BlankRejected | jinja2_eval_web.py:227 | `int()` of empty or all-whitespace text raises. |
| Integers.Strip | jinja2_eval_web.py:227 | Stripped text neither starts nor ends with the whitespace `int()` skips. |
| Integers.StripTrims | jinja2_eval_web.py:227 | Stripping keeps a slice of the text and removes only the whitespace `int()` skips, and only at the two ends. With `Integers.Strip` this pins the stripped text exactly. |
| Integers.SeparatorRejected | jinja2_eval_web.py:227 | `int("\x1c5")` and `int("5\x1f")` raise: the separators 0x1C..0x1F are not whitespace to `int()` on ASCII text, although `str.isspace()` accepts them. A `count` of `\x1c2` therefore clears the whole history (History.ClearAll). |
| Integers.SpacesAroundIgnored | jinja2_eval_web.py:227 | `int(" 5 ")` is 5: whitespace around the digits is ignored. |
| Integers.FormatNat | jinja2_eval_web.py:256 | `str(n)` for `n >= 0` is a non-empty run of digits. |
| Integers.FormatNatValue | jinja2_eval_web.py:256 | The digits of `str(n)` have the value `n`. |
| Base64.Encode | jinja2_eval_web.py:306-307 | `base64.b64encode`. Its properties are stated by Base64.DecodeEncode, Base64.EncodeLength and Base64.EncodeAlphabet. |
| Base64.Decode | jinja2_eval_web.py:85-89 | `base64.b64decode`, strict (see Left out). Base64.DecodeEncode states that it inverts Base64.Encode. |
| Base64.DecodeEncode | jinja2_eval_web.py:306-307 | `b64decode(b64encode(bs)) == bs` for every byte string, padding included. |
| Base64.EncodeLength | jinja2_eval_web.py:306-307 | Encoding yields four characters for every started group of three bytes. |
| Base64.EncodeAlphabet | jinja2_eval_web.py:306-307 | Every encoded character is in the Base64 alphabet or is `=`, so `.decode('ascii')` never fails. |
| Base64.GroupRoundTrip | jinja2_eval_web.py:306-307 | Three bytes encode to a four-character quantum that decodes back to them, whether or not it is the last one. |
| Utf8.Encode | jinja2_eval_web.py:306-307 | `str.encode('utf-8')`. Utf8.DecodeEncode states that strict decoding inverts it. |
| Utf8.Decode | jinja2_eval_web.py:85-89 | `bytes.decode('utf-8')`, strict. Utf8.DecodeEncode and Utf8.DecodeFirstCanonical state it. |
| Utf8.DecodeEncode | jinja2_eval_web.py:85 | Strict UTF-8 decoding of the UTF-8 encoding of any text gives the text back. |
| Utf8.DecodeFirstEncodeChar | jinja2_eval_web.py:85 | The strict decoder reads back exactly the character the encoder wrote (jinja2_eval_web.py:306), consuming exactly its bytes, whatever follows. |
| Utf8.DecodeFirstCanonical | jinja2_eval_web.py:85 | Strictness: whatever the decoder accepts is the one UTF-8 encoding of the character it yields, so overlong forms are refused. |
| Sorting.Sort | jinja2_eval_web.py:143 | `files.sort()` returns a sorted permutation of its input. |
| Sorting.SortedUnique | jinja2_eval_web.py:143 | Two sorted permutations of one list are equal: the sort result is unique. |
| Sorting.PermutationKeepsDistinct | jinja2_eval_web.py:138-143 | Rearranging a list of distinct names keeps them distinct. |
| Strings.ContainsIff | jinja2_eval_web.py:168 | Python's `sub in s` holds exactly when `sub` occurs at some index of `s`. |

## Left out

- Methods other than GET and POST: the handler defines only `do_GET` and `do_POST`, so
  `http.server` answers any other method 501 itself. `Requests.Method` has only the two.
- HTTP plumbing: the socket server, headers (other than the two tags), `Content-Length`
  reading and the HTML page bytes. Replies are modelled as a status and a typed body.
- `urlparse`/`parse_qs`: requests arrive decoded, one value per name (the first).
  Percent-decoding and `parse_qs` dropping blank values are not modelled, so the model also
  handles the empty values the real server never sees.
- File I/O: the history and settings files are in-memory state. A failing history write is
  not modelled. The render's record swallows it (jinja2_eval_web.py:301-319), and the reply is
  sent as usual. A failing write-back in `POST /history/clear` (jinja2_eval_web.py:233-234) is
  outside any `try`, so the exception escapes the handler, no 200 is sent, and the file may be
  left truncated. A history file that loads but is not a list of
  entries is not modelled either; an unreadable file is modelled as `History.Unreadable`.
- Writing the settings file (jinja2_eval_web.py:251-252) is not modelled. Nor are
  `configparser` key lower-casing, interpolation and the `DEFAULT` section.
- A posted settings value with a lone `%` (one not written `%%`) makes
  `config[section][k] = v[0]` raise `ValueError` (jinja2_eval_web.py:250). That is the basic
  interpolation's check before a value is set. The line is outside any `try`, so no reply is
  sent, and the keys set before it stay in memory. The model stores every value as posted.
- The Jinja2 sandbox, the Ansible filters, `json.loads`/`json.dumps` and `yaml.safe_load` are
  parameters (`Render.Engines`). Any exception `json.loads` raises other than
  `JSONDecodeError` (a `RecursionError` on deep nesting) is not modelled.
- The timestamp `utcnow().isoformat() + 'Z'` is the `now` parameter.
- The filesystem (`exists`, `isdir`, `isfile`, `listdir`, `realpath`, reading text) is a
  parameter (`Fixtures.FileSystem`). Symlink resolution is whatever `realPath` returns.
  Windows paths are out of scope: paths are POSIX.
- The file-watching restart thread, `__main__`, and the test scripts themselves (which are
  cited only for the properties they check).
- Concurrency: requests are handled one at a time, so races on the history file are not
  modelled.
- Integers.ParseInt: only ASCII text is modelled exactly. When the text holds a non-ASCII
  character, CPython first maps every character `str.isspace()` accepts to a space and every
  Unicode decimal digit to its ASCII digit. So `int()` then also accepts other Unicode
  whitespace (U+0085 and U+3000 among them), the separators 0x1C..0x1F and non-ASCII digits.
  The model refuses all of these. CPython 3.11 and later also refuse
  `int()` and `str()` on more than 4300 digits (`sys.int_max_str_digits`); the model has no
  such limit, so Integers.ParseFormatRoundTrip holds there only up to that size.
- Base64.Decode: it is strict (RFC 4648 alphabet, padding only in the last quantum). Python's
  default `b64decode` also discards non-alphabet characters, ignores misplaced `=`, and stops at
  the first complete padded quantum (`b64decode("QQ==QQ==")` is `b"A"` and `b64decode("====")`
  is `b""`); the model treats all of these as errors.
  On text this server wrote, the two agree (Base64.EncodeAlphabet, Base64.DecodeEncode).
- Utf8.Decode: a malformed sequence is modelled as `None`; the position and reason Python
  puts in its `UnicodeDecodeError` are not modelled, since the handler discards them.

=== FILE: base64.dfy ===
/** Standard Base64 with padding (section 4 of RFC 4648): `base64.b64encode` and
    `base64.b64decode`. */
module Base64 {
  import opened Wrappers

  /** The character for a six-bit value in the alphabet of Table 1 of RFC 4648:
      `A`..`Z`, `a`..`z`, `0`..`9`, `+`, `/`. */
  function CharOf(v: int): (c: char)
    requires 0 <= v < 64
  {
    if v < 26 then ('A' as int + v) as char
    else if v < 52 then ('a' as int + (v - 26)) as char
    else if v < 62 then ('0' as int + (v - 52)) as char
    else if v == 62 then '+'
    else '/'
  }

  /** The six-bit value of an alphabet character; `None` for anything else, `=` included. */
  function ValueOf(c: char): (r: Option<int>)
    ensures r.Some? ==> 0 <= r.value < 64
  {
    if 'A' <= c <= 'Z' then Some(c as int - 'A' as int)
    else if 'a' <= c <= 'z' then Some(c as int - 'a' as int + 26)
    else if '0' <= c <= '9' then Some(c as int - '0' as int + 52)
    else if c == '+' then Some(62)
    else if c == '/' then Some(63)
    else None
  }

  /** Decoding a character the encoder chose gives back its six-bit value. */
  lemma CharOfMatchesAlphabet(v: int)
    requires 0 <= v < 64
    ensures ValueOf(CharOf(v)) == Some(v)
  {
  }

  /** Regrouping three bytes into four six-bit values and back is the identity. */
  lemma RegroupBits(b0: byte, b1: byte, b2: byte)
    ensures var c0, c1, c2, c3 := b0 / 4, (b0 % 4) * 16 + b1 / 16, (b1 % 16) * 4 + b2 / 64, b2 % 64;
      c0 * 4 + c1 / 16 == b0 && (c1 % 16) * 16 + c2 / 4 == b1 && (c2 % 4) * 64 + c3 == b2
  {
    var c1 := (b0 % 4) * 16 + b1 / 16;
    var c2 := (b1 % 16) * 4 + b2 / 64;
    assert c1 / 16 == b0 % 4 && c1 % 16 == b1 / 16;
    assert c2 / 4 == b1 % 16 && c2 % 4 == b2 / 64;
  }

  /** Three bytes as four characters. */
  function EncodeGroup(b0: byte, b1: byte, b2: byte): (r: string)
    ensures |r| == 4
  {
    [CharOf(b0 / 4), CharOf((b0 % 4) * 16 + b1 / 16), CharOf((b1 % 16) * 4 + b2 / 64), CharOf(b2 % 64)]
  }

  /** One trailing byte: two characters and two pad signs. */
  function EncodeOne(b0: byte): (r: string)
    ensures |r| == 4 && r[2] == '=' && r[3] == '='
  {
    [CharOf(b0 / 4), CharOf((b0 % 4) * 16), '=', '=']
  }

  /** Two trailing bytes: three characters and one pad sign. */
  function EncodeTwo(b0: byte, b1: byte): (r: string)
    ensures |r| == 4 && r[3] == '='
  {
    [CharOf(b0 / 4), CharOf((b0 % 4) * 16 + b1 / 16), CharOf((b1 % 16) * 4), '=']
  }

  /** `b64encode(bs)`: full groups, then one or two trailing bytes padded with `=`. */
  function Encode(bs: seq<byte>): string
    decreases |bs|
  {
    if |bs| == 0 then ""
    else if |bs| == 1 then EncodeOne(bs[0])
    else if |bs| == 2 then EncodeTwo(bs[0], bs[1])
    else EncodeGroup(bs[0], bs[1], bs[2]) + Encode(bs[3..])
  }

  /** Decodes one four-character quantum; `last` says whether padding may appear in it. */
  function DecodeQuantum(q: string, last: bool): Option<seq<byte>>
    requires |q| == 4
  {
    match (ValueOf(q[0]), ValueOf(q[1]), ValueOf(q[2]), ValueOf(q[3]))
    case (Some(c0), Some(c1), Some(c2), Some(c3)) =>
      Some([c0 * 4 + c1 / 16, (c1 % 16) * 16 + c2 / 4, (c2 % 4) * 64 + c3])
    case (Some(c0), Some(c1), Some(c2), None) =>
      if last && q[3] == '=' then Some([c0 * 4 + c1 / 16, (c1 % 16) * 16 + c2 / 4]) else None
    case (Some(c0), Some(c1), None, None) =>
      if last && q[2] == '=' && q[3] == '=' then Some([c0 * 4 + c1 / 16]) else None
    case _ => None
  }

  /** `b64decode(s)`: `None` stands for `binascii.Error`. */
  function Decode(s: string): Option<seq<byte>>
    decreases |s|
  {
    if |s| == 0 then Some([])
    else if |s| < 4 then None
    else
      match DecodeQuantum(s[..4], |s| == 4)
      case None => None
      case Some(head) =>
        match Decode(s[4..])
        case None => None
        case Some(tail) => Some(head + tail)
  }

  lemma GroupRoundTrip(b0: byte, b1: byte, b2: byte, last: bool)
    ensures DecodeQuantum(EncodeGroup(b0, b1, b2), last) == Some([b0, b1, b2])
  {
    var c0, c1, c2, c3 := b0 / 4, (b0 % 4) * 16 + b1 / 16, (b1 % 16) * 4 + b2 / 64, b2 % 64;
    RegroupBits(b0, b1, b2);
    var q := EncodeGroup(b0, b1, b2);
    CharOfMatchesAlphabet(c0);
    CharOfMatchesAlphabet(c1);
    CharOfMatchesAlphabet(c2);
    CharOfMatchesAlphabet(c3);
    assert ValueOf(q[0]) == Some(c0) && ValueOf(q[1]) == Some(c1);
    assert ValueOf(q[2]) == Some(c2) && ValueOf(q[3]) == Some(c3);
  }

  /** Decoding a quantum followed by more text: the quantum's bytes, then the rest's. */
  lemma DecodeConcat(q: string, rest: string, head: seq<byte>, tail: seq<byte>)
    requires |q| == 4
    requires DecodeQuantum(q, |rest| == 0) == Some(head)
    requires Decode(rest) == Some(tail)
    ensures Decode(q + rest) == Some(head + tail)
  {
    var s := q + rest;
    assert s[..4] == q;
    assert s[4..] == rest;
  }

  lemma OneByteQuantum(b0: byte)
    ensures DecodeQuantum(EncodeOne(b0), true) == Some([b0])
  {
    RegroupBits(b0, 0, 0);
    CharOfMatchesAlphabet(b0 / 4);
    CharOfMatchesAlphabet((b0 % 4) * 16);
    assert ValueOf('=') == None;
  }

  lemma TwoByteQuantum(b0: byte, b1: byte)
    ensures DecodeQuantum(EncodeTwo(b0, b1), true) == Some([b0, b1])
  {
    RegroupBits(b0, b1, 0);
    CharOfMatchesAlphabet(b0 / 4);
    CharOfMatchesAlphabet((b0 % 4) * 16 + b1 / 16);
    CharOfMatchesAlphabet((b1 % 16) * 4);
    assert ValueOf('=') == None;
  }

  lemma OneByteRoundTrip(b0: byte)
    ensures Decode(Encode([b0])) == Some([b0])
  {
    var q := EncodeOne(b0);
    assert Encode([b0]) == q;
    OneByteQuantum(b0);
    DecodeConcat(q, "", [b0], []);
    assert q + "" == q;
    assert [b0] + [] == [b0];
  }

  lemma TwoByteRoundTrip(b0: byte, b1: byte)
    ensures Decode(Encode([b0, b1])) == Some([b0, b1])
  {
    var q := EncodeTwo(b0, b1);
    assert Encode([b0, b1]) == q;
    TwoByteQuantum(b0, b1);
    DecodeConcat(q, "", [b0, b1], []);
    assert q + "" == q;
    assert [b0, b1] + [] == [b0, b1];
  }

  /** `b64decode(b64encode(bs)) == bs` */
  lemma {:induction false} DecodeEncode(bs: seq<byte>)
    ensures Decode(Encode(bs)) == Some(bs)
    decreases |bs|
  {
    if |bs| == 1 {
      OneByteRoundTrip(bs[0]);
      assert bs == [bs[0]];
    } else if |bs| == 2 {
      TwoByteRoundTrip(bs[0], bs[1]);
      assert bs == [bs[0], bs[1]];
    } else if |bs| >= 3 {
      DecodeEncode(bs[3..]);
      GroupThenRest(bs[..3], Encode(bs[3..]), bs[3..]);
      GroupStep(bs);
      assert bs[..3] + bs[3..] == bs;
    }
  }

  /** A long input is encoded one group at a time. */
  lemma GroupStep(bs: seq<byte>)
    requires |bs| >= 3
    ensures Encode(bs) == EncodeGroup(bs[0], bs[1], bs[2]) + Encode(bs[3..])
  {
  }

  /** The quantum of three bytes in front of any text that decodes. */
  lemma GroupThenRest(head: seq<byte>, rest: string, tail: seq<byte>)
    requires |head| == 3
    requires Decode(rest) == Some(tail)
    ensures Decode(EncodeGroup(head[0], head[1], head[2]) + rest) == Some(head + tail)
  {
    GroupRoundTrip(head[0], head[1], head[2], |rest| == 0);
    assert [head[0], head[1], head[2]] == head;
    DecodeConcat(EncodeGroup(head[0], head[1], head[2]), rest, head, tail);
  }

  /** Four characters for every started group of three bytes. */
  lemma {:induction false} EncodeLength(bs: seq<byte>)
    ensures |Encode(bs)| == (|bs| + 2) / 3 * 4
    decreases |bs|
  {
    if |bs| >= 3 {
      EncodeLength(bs[3..]);
    }
  }

  /** Encoded text uses only alphabet characters and padding, so it is safe to embed. */
  lemma {:induction false} EncodeAlphabet(bs: seq<byte>)
    ensures forall i :: 0 <= i < |Encode(bs)| ==> ValueOf(Encode(bs)[i]).Some? || Encode(bs)[i] == '='
    decreases |bs|
  {
    if |bs| >= 3 {
      EncodeAlphabet(bs[3..]);
      CharOfMatchesAlphabet(bs[0] / 4);
      CharOfMatchesAlphabet((bs[0] % 4) * 16 + bs[1] / 16);
      CharOfMatchesAlphabet((bs[1] % 16) * 4 + bs[2] / 64);
      CharOfMatchesAlphabet(bs[2] % 64);
      assert Encode(bs) == EncodeGroup(bs[0], bs[1], bs[2]) + Encode(bs[3..]);
    } else if |bs| == 2 {
      CharOfMatchesAlphabet(bs[0] / 4);
      CharOfMatchesAlphabet((bs[0] % 4) * 16 + bs[1] / 16);
      CharOfMatchesAlphabet((bs[1] % 16) * 4);
      assert Encode(bs) == EncodeTwo(bs[0], bs[1]);
    } else if |bs| == 1 {
      CharOfMatchesAlphabet(bs[0] / 4);
      CharOfMatchesAlphabet((bs[0] % 4) * 16);
      assert Encode(bs) == EncodeOne(bs[0]);
    }
  }
}

=== FILE: config.dfy ===
/** The settings store: named sections of string-valued keys (a `configparser.ConfigParser`),
    and how a settings write moves the history bound. */
module Config {
  import opened Wrappers
  import opened Requests
  import Integers

  type Section = map<string, string>
  type Store = map<string, Section>

  const HistorySection: string := "history"
  const MaxEntriesKey: string := "max_entries"
  const InputSection: string := "input_files"
  const DirectoryKey: string := "directory"

  /** The form field naming the section of a settings request; it is never stored. */
  const SectionField: string := "section"

  /** `config.get(section, key, fallback=fallback)`: a missing section or key gives the fallback. */
  function Get(cfg: Store, section: string, key: string, fallback: string): string {
    if section in cfg && key in cfg[section] then cfg[section][key] else fallback
  }

  /** What `GET /settings` answers. */
  datatype View = OneSection(values: Section) | AllSections(sections: Store)

  /** `GET /settings`: the named section (empty when it does not exist), or every section
      when no name is given. */
  function Read(cfg: Store, section: Option<string>): View {
    if !Blank(section) then
      OneSection(if section.value in cfg then cfg[section.value] else map[])
    else AllSections(cfg)
  }

  /** The posted keys of a settings request: every field except the section name. */
  function Posted(params: Params): Section {
    map k | k in params && k != SectionField :: params[k]
  }

  /** Merges the posted keys into `section`, creating it when absent. */
  function Merge(cfg: Store, section: string, params: Params): (r: Store)
    ensures r.Keys == cfg.Keys + {section}
    ensures forall s :: s in cfg && s != section ==> r[s] == cfg[s]
    ensures var before := if section in cfg then cfg[section] else map[];
      && r[section].Keys == before.Keys + (params.Keys - {SectionField})
      && (forall k :: k in params && k != SectionField ==> r[section][k] == params[k])
      && (forall k :: k in before && (k !in params || k == SectionField) ==> r[section][k] == before[k])
  {
    var before := if section in cfg then cfg[section] else map[];
    cfg[section := before + Posted(params)]
  }

  /** The history bound after a write to `section`: re-read from `history.max_entries` when
      that section was written and the value parses as an integer, otherwise kept. */
  function BoundAfterWrite(cfg: Store, section: string, bound: int): int {
    if section == HistorySection && HistorySection in cfg && MaxEntriesKey in cfg[HistorySection] then
      match Integers.ParseInt(cfg[HistorySection][MaxEntriesKey])
      case Some(n) => n
      case None => bound
    else bound
  }

  /** The outcome of `POST /settings`. */
  datatype WriteOutcome =
    | MissingSection
    | Written(config: Store, bound: int, section: string, values: Section)

  /** `POST /settings`: a missing or empty section name is refused; otherwise the posted keys
      are merged into the section, the bound is refreshed, and the section is echoed. */
  function Write(cfg: Store, bound: int, params: Params): (r: WriteOutcome)
    ensures r.MissingSection? <==> Blank(Lookup(params, SectionField))
    ensures r.Written? ==>
              && r.section == params[SectionField]
              && r.config == Merge(cfg, r.section, params)
              && r.values == r.config[r.section]
              && r.bound == BoundAfterWrite(r.config, r.section, bound)
  {
    var section := Lookup(params, SectionField);
    if Blank(section) then MissingSection
    else
      var cfg' := Merge(cfg, section.value, params);
      Written(cfg', BoundAfterWrite(cfg', section.value, bound), section.value, cfg'[section.value])
  }

  /** Two writes to one section accumulate: keys of the first survive the second unless
      it posts them again. */
  lemma WritesAccumulate(cfg: Store, bound: int, p1: Params, p2: Params, section: string)
    requires Lookup(p1, SectionField) == Some(section) && Lookup(p2, SectionField) == Some(section)
    requires section != ""
    ensures var w1 := Write(cfg, bound, p1);
      var w2 := Write(w1.config, w1.bound, p2);
      && (forall k :: k in p1 && k != SectionField && k !in p2 ==> w2.values[k] == p1[k])
      && (forall k :: k in p2 && k != SectionField ==> w2.values[k] == p2[k])
      && (SectionField !in w2.values <==> (section !in cfg || SectionField !in cfg[section]))
  {
  }

  /** A section read back after a write shows the merged section, holding every posted
      key with its posted value; reading any other section gives what it gave before. */
  lemma ReadAfterWrite(cfg: Store, bound: int, params: Params)
    requires !Blank(Lookup(params, SectionField))
    ensures var w := Write(cfg, bound, params);
      var section := params[SectionField];
      && Read(w.config, Some(section)) == OneSection(w.values)
      && (forall k :: k in params && k != SectionField ==> k in w.values && w.values[k] == params[k])
      && (forall other :: other != "" && other != section ==> Read(w.config, Some(other)) == Read(cfg, Some(other)))
  {
  }

  /** Writing `history.max_entries` moves the bound exactly when the value parses. */
  lemma BoundFollowsMaxEntries(cfg: Store, bound: int, params: Params)
    requires Lookup(params, SectionField) == Some(HistorySection)
    requires MaxEntriesKey in params
    ensures var w := Write(cfg, bound, params);
      && w.Written?
      && w.bound == (match Integers.ParseInt(params[MaxEntriesKey])
                     case Some(n) => n
                     case None => bound)
  {
  }

  /** Writing `str(n)` as `history.max_entries` sets the bound to `n`. */
  lemma FormattedBoundApplies(cfg: Store, bound: int, params: Params, n: int)
    requires Lookup(params, SectionField) == Some(HistorySection)
    requires MaxEntriesKey in params && params[MaxEntriesKey] == Integers.FormatInt(n)
    ensures Write(cfg, bound, params).bound == n
  {
    Integers.ParseFormatRoundTrip(n);
  }

  /** Writes to any other section never move the bound. */
  lemma OtherSectionsKeepBound(cfg: Store, bound: int, params: Params)
    requires Lookup(params, SectionField).Some? && params[SectionField] != HistorySection
    requires params[SectionField] != ""
    ensures Write(cfg, bound, params).bound == bound
  {
  }
}

=== FILE: fixtures.dfy ===
/** The fixture directory: listing its regular files and serving one of them by name
    behind a syntactic gate and a canonical-path containment test. */
module Fixtures {
  import opened Wrappers
  import opened Requests
  import Strings
  import Sorting
  import Paths
  import Config

  /** The filesystem as the handler queries it. Each field is one `os` call:
      `os.path.exists`, `os.path.isdir`, `os.path.isfile`, `os.listdir` (`None` when it
      raises), `os.path.realpath` (`None` when it raises) and reading a text file. */
  datatype FileSystem = FileSystem(
    present: string -> bool,
    isDir: string -> bool,
    isFile: string -> bool,
    listDir: string -> Option<seq<string>>,
    realPath: string -> Option<string>,
    readText: string -> Result<string>)

  /** The configured `input_files.directory`, or the empty text when unset. */
  function ConfiguredDirectory(cfg: Config.Store): string {
    Config.Get(cfg, Config.InputSection, Config.DirectoryKey, "")
  }

  /** A relative directory is taken relative to the directory holding the script. */
  function Resolve(scriptDir: string, dir: string): string {
    if Paths.IsAbs(dir) then dir else Paths.Join(scriptDir, dir)
  }

  /** The resolved directory ends with the configured one, starts with the script directory
      unless the configured one is absolute (which it then is verbatim), and is absolute
      whenever either of them is. */
  lemma ResolvePlacement(scriptDir: string, dir: string)
    ensures var r := Resolve(scriptDir, dir);
      && |dir| <= |r| && r[|r| - |dir|..] == dir
      && (!Paths.IsAbs(dir) ==> |scriptDir| <= |r| && r[..|scriptDir|] == scriptDir)
      && (Paths.IsAbs(dir) ==> r == dir)
      && (Paths.IsAbs(scriptDir) || Paths.IsAbs(dir) ==> Paths.IsAbs(r))
  {
  }

  /** The names in `names` that are regular files of `dir`, in their original order. */
  function RegularFiles(fs: FileSystem, dir: string, names: seq<string>): (r: seq<string>)
    ensures forall x :: x in r <==> x in names && fs.isFile(Paths.Join(dir, x))
    ensures Sorting.Distinct(names) ==> Sorting.Distinct(r)
    decreases |names|
  {
    if |names| == 0 then []
    else
      var rest := RegularFiles(fs, dir, names[1..]);
      assert names == [names[0]] + names[1..];
      if fs.isFile(Paths.Join(dir, names[0])) then
        assert Sorting.Distinct(names) ==> names[0] !in rest;
        [names[0]] + rest
      else rest
  }

  /** `GET /input-files`: the sorted regular files of the configured directory, or `[]` when
      no directory is configured, it is missing or not a directory, or listing it raises. */
  function ListFiles(fs: FileSystem, scriptDir: string, cfg: Config.Store): (r: seq<string>)
    ensures Sorting.Sorted(r)
  {
    var dir := ConfiguredDirectory(cfg);
    if dir == "" then []
    else
      var d := Resolve(scriptDir, dir);
      if !fs.present(d) || !fs.isDir(d) then []
      else
        match fs.listDir(d)
        case None => []
        case Some(names) => Sorting.Sort(RegularFiles(fs, d, names))
  }

  /** When the directory can be listed, the listing holds each regular-file child exactly
      once, no other name, in ascending order; it is the one sorted arrangement of them. */
  lemma ListFilesContents(fs: FileSystem, scriptDir: string, cfg: Config.Store, names: seq<string>)
    requires ConfiguredDirectory(cfg) != ""
    requires var d := Resolve(scriptDir, ConfiguredDirectory(cfg));
      fs.present(d) && fs.isDir(d) && fs.listDir(d) == Some(names)
    requires Sorting.Distinct(names)
    ensures var d := Resolve(scriptDir, ConfiguredDirectory(cfg));
      var r := ListFiles(fs, scriptDir, cfg);
      && Sorting.Sorted(r)
      && Sorting.Distinct(r)
      && (forall x :: x in r <==> x in names && fs.isFile(Paths.Join(d, x)))
  {
    var d := Resolve(scriptDir, ConfiguredDirectory(cfg));
    var files := RegularFiles(fs, d, names);
    var r := ListFiles(fs, scriptDir, cfg);
    assert r == Sorting.Sort(files);
    Sorting.PermutationKeepsDistinct(files, r);
    forall x ensures x in r <==> x in files {
      assert x in r <==> x in multiset(r);
      assert x in files <==> x in multiset(files);
    }
  }

  /** Any sorted arrangement of the regular files is the listing. */
  lemma ListFilesIsTheSortedArrangement(fs: FileSystem, scriptDir: string, cfg: Config.Store,
                                       names: seq<string>, other: seq<string>)
    requires ConfiguredDirectory(cfg) != ""
    requires var d := Resolve(scriptDir, ConfiguredDirectory(cfg));
      fs.present(d) && fs.isDir(d) && fs.listDir(d) == Some(names)
    requires Sorting.Sorted(other)
    requires multiset(other) == multiset(RegularFiles(fs, Resolve(scriptDir, ConfiguredDirectory(cfg)), names))
    ensures ListFiles(fs, scriptDir, cfg) == other
  {
    var d := Resolve(scriptDir, ConfiguredDirectory(cfg));
    Sorting.SortedUnique(ListFiles(fs, scriptDir, cfg), other);
  }

  /** No directory, a missing one, one that is not a directory, or one that cannot be
      listed lists as `[]`. */
  lemma ListFilesEmptyWhenUnavailable(fs: FileSystem, scriptDir: string, cfg: Config.Store)
    requires var dir := ConfiguredDirectory(cfg);
      || dir == ""
      || !fs.present(Resolve(scriptDir, dir))
      || !fs.isDir(Resolve(scriptDir, dir))
      || fs.listDir(Resolve(scriptDir, dir)).None?
    ensures ListFiles(fs, scriptDir, cfg) == []
  {
  }

  /** The reply of `GET /input-file-content`. */
  datatype ReadOutcome = Served(content: string) | Refused(status: int, message: string)

  /** The path a safe name would be read from. */
  function Candidate(scriptDir: string, cfg: Config.Store, name: string): string {
    Paths.Join(Resolve(scriptDir, ConfiguredDirectory(cfg)), name)
  }

  /** The canonical candidate lies strictly below the canonical root: it starts with the
      root followed by a separator, so the root itself is not inside. */
  predicate Contained(fs: FileSystem, root: string, candidate: string) {
    && fs.realPath(root).Some?
    && fs.realPath(candidate).Some?
    && Strings.StartsWith(fs.realPath(candidate).value, fs.realPath(root).value + [Paths.Sep])
  }

  /** `GET /input-file-content`, its checks in the handler's order: a missing name (400), no
      configured directory (404), the syntactic gate (403), canonicalisation failing (403),
      canonical containment (403), not an existing regular file (404), a read error (500). */
  function ReadFile(fs: FileSystem, scriptDir: string, cfg: Config.Store, filename: Option<string>): (r: ReadOutcome)
    ensures r.Served? ==>
              && !Blank(filename)
              && Paths.SafeName(filename.value)
              && Contained(fs, Resolve(scriptDir, ConfiguredDirectory(cfg)), Candidate(scriptDir, cfg, filename.value))
              && fs.present(Candidate(scriptDir, cfg, filename.value))
              && fs.isFile(Candidate(scriptDir, cfg, filename.value))
              && fs.readText(Candidate(scriptDir, cfg, filename.value)) == Ok(r.content)
    ensures r.Refused? ==> r.status in {400, 403, 404, 500}
  {
    if Blank(filename) then Refused(400, "Missing filename parameter")
    else
      var dir := ConfiguredDirectory(cfg);
      if dir == "" then Refused(404, "Input directory not configured")
      else
        var d := Resolve(scriptDir, dir);
        var name := filename.value;
        if !Paths.SafeName(name) then Refused(403, "Access denied - invalid filename")
        else
          var path := Paths.Join(d, name);
          var realDir := fs.realPath(d);
          var realFile := fs.realPath(path);
          if realDir.None? || realFile.None? then Refused(403, "Access denied - path resolution error")
          else if !Strings.StartsWith(realFile.value, realDir.value + [Paths.Sep]) then
            Refused(403, "Access denied - path traversal detected")
          else if !fs.present(path) || !fs.isFile(path) then Refused(404, "File not found")
          else
            match fs.readText(path)
            case Ok(content) => Served(content)
            case Err(e) => Refused(500, "Error reading file: " + e)
  }

  /** A missing or empty name is refused with 400 before anything else is looked at. */
  lemma MissingNameFirst(fs: FileSystem, scriptDir: string, cfg: Config.Store, filename: Option<string>)
    ensures Blank(filename) <==> ReadFile(fs, scriptDir, cfg, filename) == Refused(400, "Missing filename parameter")
  {
  }

  /** With a name but no configured directory the reply is 404, whatever the name. */
  lemma NoDirectorySecond(fs: FileSystem, scriptDir: string, cfg: Config.Store, name: string)
    requires name != "" && ConfiguredDirectory(cfg) == ""
    ensures ReadFile(fs, scriptDir, cfg, Some(name)) == Refused(404, "Input directory not configured")
  {
  }

  /** A safe name whose canonical path is not strictly inside the canonical root is refused
      with 403, before existence is looked at. */
  lemma ContainmentBeforeExistence(fs: FileSystem, scriptDir: string, cfg: Config.Store, name: string)
    requires name != "" && ConfiguredDirectory(cfg) != "" && Paths.SafeName(name)
    requires !Contained(fs, Resolve(scriptDir, ConfiguredDirectory(cfg)), Candidate(scriptDir, cfg, name))
    ensures var r := ReadFile(fs, scriptDir, cfg, Some(name));
      r.Refused? && r.status == 403
  {
    var d := Resolve(scriptDir, ConfiguredDirectory(cfg));
    if fs.realPath(d).Some? && fs.realPath(Candidate(scriptDir, cfg, name)).Some? {
      EscapingNameRefused(fs, scriptDir, cfg, name);
    } else {
      UnresolvableNameRefused(fs, scriptDir, cfg, name);
    }
  }

  /** A gate-passing name whose root or candidate path cannot be canonicalised is refused. */
  lemma UnresolvableNameRefused(fs: FileSystem, scriptDir: string, cfg: Config.Store, name: string)
    requires name != "" && ConfiguredDirectory(cfg) != "" && Paths.SafeName(name)
    requires fs.realPath(Resolve(scriptDir, ConfiguredDirectory(cfg))).None?
          || fs.realPath(Candidate(scriptDir, cfg, name)).None?
    ensures ReadFile(fs, scriptDir, cfg, Some(name)) == Refused(403, "Access denied - path resolution error")
  {
  }

  /** A contained name that is not an existing regular file is refused with 404. */
  lemma MissingFileLast(fs: FileSystem, scriptDir: string, cfg: Config.Store, name: string)
    requires name != "" && ConfiguredDirectory(cfg) != "" && Paths.SafeName(name)
    requires Contained(fs, Resolve(scriptDir, ConfiguredDirectory(cfg)), Candidate(scriptDir, cfg, name))
    requires !fs.present(Candidate(scriptDir, cfg, name)) || !fs.isFile(Candidate(scriptDir, cfg, name))
    ensures ReadFile(fs, scriptDir, cfg, Some(name)) == Refused(404, "File not found")
  {
  }

  /** A name that passes every check is served with exactly the file's content. */
  lemma ReadFileServes(fs: FileSystem, scriptDir: string, cfg: Config.Store, name: string, content: string)
    requires name != "" && ConfiguredDirectory(cfg) != "" && Paths.SafeName(name)
    requires Contained(fs, Resolve(scriptDir, ConfiguredDirectory(cfg)), Candidate(scriptDir, cfg, name))
    requires fs.present(Candidate(scriptDir, cfg, name)) && fs.isFile(Candidate(scriptDir, cfg, name))
    requires fs.readText(Candidate(scriptDir, cfg, name)) == Ok(content)
    ensures ReadFile(fs, scriptDir, cfg, Some(name)) == Served(content)
  {
  }

  /** A name the gate refuses is refused whatever the filesystem holds: the gate runs
      before any filesystem call. */
  lemma GateBeforeFilesystem(fs1: FileSystem, fs2: FileSystem, scriptDir: string, cfg: Config.Store, name: string)
    requires name != "" && ConfiguredDirectory(cfg) != ""
    requires !Paths.SafeName(name)
    ensures ReadFile(fs1, scriptDir, cfg, Some(name)) == ReadFile(fs2, scriptDir, cfg, Some(name))
      == Refused(403, "Access denied - invalid filename")
  {
  }

  /** The traversal names of the test suite are stopped by the gate. */
  lemma TraversalNamesRefused(fs: FileSystem, scriptDir: string, cfg: Config.Store)
    requires ConfiguredDirectory(cfg) != ""
    ensures ReadFile(fs, scriptDir, cfg, Some("../../../etc/passwd")) == Refused(403, "Access denied - invalid filename")
    ensures ReadFile(fs, scriptDir, cfg, Some("....//....//....//etc/passwd")) == Refused(403, "Access denied - invalid filename")
    ensures ReadFile(fs, scriptDir, cfg, Some("../jinja2_eval_web.py")) == Refused(403, "Access denied - invalid filename")
  {
    assert Strings.StartsWith("../../../etc/passwd", "..");
    assert Strings.StartsWith("....//....//....//etc/passwd", "..");
    assert Strings.StartsWith("../jinja2_eval_web.py", "..");
  }

  /** A name holding `..` anywhere is refused, even when it names no parent (`a..json`). */
  lemma DoubleDotRefused(fs: FileSystem, scriptDir: string, cfg: Config.Store, name: string, i: int)
    requires ConfiguredDirectory(cfg) != ""
    requires Strings.OccursAt(name, "..", i)
    ensures ReadFile(fs, scriptDir, cfg, Some(name)) == Refused(403, "Access denied - invalid filename")
  {
    Strings.ContainsAt(name, "..", i);
  }

  /** `.` passes the gate, but it canonicalises to the root itself, which is not strictly
      inside the root, so it is refused too. */
  lemma DotRefused(fs: FileSystem, scriptDir: string, cfg: Config.Store)
    requires ConfiguredDirectory(cfg) != ""
    requires var d := Resolve(scriptDir, ConfiguredDirectory(cfg));
      fs.realPath(d).Some? && fs.realPath(Paths.Join(d, ".")) == fs.realPath(d)
    ensures Paths.SafeName(".")
    ensures ReadFile(fs, scriptDir, cfg, Some(".")) == Refused(403, "Access denied - path traversal detected")
  {
    Paths.DotIsSafe();
    var root := fs.realPath(Resolve(scriptDir, ConfiguredDirectory(cfg))).value;
    assert !Strings.StartsWith(root, root + [Paths.Sep]) by {
      assert |root + [Paths.Sep]| > |root|;
    }
    EscapingNameRefused(fs, scriptDir, cfg, ".");
  }

  /** A gate-passing name whose canonical path does not start with the canonical root and a
      separator is refused as a traversal. */
  lemma EscapingNameRefused(fs: FileSystem, scriptDir: string, cfg: Config.Store, name: string)
    requires name != "" && ConfiguredDirectory(cfg) != "" && Paths.SafeName(name)
    requires var d := Resolve(scriptDir, ConfiguredDirectory(cfg));
      && fs.realPath(d).Some?
      && fs.realPath(Candidate(scriptDir, cfg, name)).Some?
      && !Strings.StartsWith(fs.realPath(Candidate(scriptDir, cfg, name)).value, fs.realPath(d).value + [Paths.Sep])
    ensures ReadFile(fs, scriptDir, cfg, Some(name)) == Refused(403, "Access denied - path traversal detected")
  {
  }
}

=== FILE: history.dfy ===
/** The bounded render history: a JSON array of entries whose `input` and `expr` fields hold
    the submitted text as Base64 of its UTF-8 bytes. */
module History {
  import opened Wrappers
  import Integers
  import Utf8
  import Base64

  /** One stored entry. A field written by this server is always present; a hand-edited
      store may lack one, which reads as the empty text. */
  datatype Entry = Entry(datetime: string, input: Option<string>, expr: Option<string>)

  /** The history file: it either loads as a list of entries or does not load at all. */
  datatype Store = Unreadable | Entries(entries: seq<Entry>)

  /** Every reader treats a store that fails to load as an empty history. */
  function Load(st: Store): seq<Entry> {
    match st
    case Unreadable => []
    case Entries(es) => es
  }

  /** Python's `xs[k:]` for any integer `k`: a negative `k` counts from the end, and both
      ends are clamped to the sequence. */
  function SliceFrom<T>(xs: seq<T>, k: int): (r: seq<T>)
    ensures |r| <= |xs| && r == xs[|xs| - |r|..]
    ensures 0 <= k ==> |r| == if k <= |xs| then |xs| - k else 0
    ensures k < 0 ==> |r| == if -k <= |xs| then -k else |xs|
  {
    if k >= 0 then (if k <= |xs| then xs[k..] else [])
    else if |xs| + k >= 0 then xs[|xs| + k..]
    else xs
  }

  /** `b64encode(text.encode('utf-8')).decode('ascii')` */
  function EncodeField(text: string): string {
    Base64.Encode(Utf8.Encode(text))
  }

  /** The field is Base64 of well-formed UTF-8, so both decoding steps succeed. */
  predicate Decodes(field: string) {
    Base64.Decode(field).Some? && Utf8.Decode(Base64.Decode(field).value).Some?
  }

  /** `b64decode(field).decode('utf-8')`, or the field unchanged when either step raises. */
  function DecodeField(field: string): (r: string)
    ensures !Decodes(field) ==> r == field
    ensures Decodes(field) ==> Some(r) == Utf8.Decode(Base64.Decode(field).value)
  {
    match Base64.Decode(field)
    case None => field
    case Some(bytes) =>
      match Utf8.Decode(bytes)
      case None => field
      case Some(text) => text
  }

  /** A stored field read back returns the submitted text. */
  lemma FieldRoundTrip(text: string)
    ensures DecodeField(EncodeField(text)) == text
  {
    Base64.DecodeEncode(Utf8.Encode(text));
    Utf8.DecodeEncode(text);
  }

  /** The entry a successful render stores, stamped with the clock reading `now`. */
  function MakeEntry(now: string, input: string, expr: string): Entry {
    Entry(now, Some(EncodeField(input)), Some(EncodeField(expr)))
  }

  /** `hist.append(entry); hist = hist[-bound:]` */
  function Append(h: seq<Entry>, e: Entry, bound: int): (r: seq<Entry>)
    ensures 1 <= bound ==> |r| == (if |h| + 1 <= bound then |h| + 1 else bound)
    ensures 1 <= bound ==> r[|r| - 1] == e
    ensures 1 <= bound ==> r == (h + [e])[|h| + 1 - |r|..]
    ensures bound == 0 ==> r == h + [e]
    ensures bound < 0 ==> |r| == (if |h| + 1 + bound >= 0 then |h| + 1 + bound else 0)
    ensures bound < 0 ==> r == (h + [e])[|h| + 1 - |r|..]
  {
    SliceFrom(h + [e], -bound)
  }

  /** Recording into the store: it is loaded (an unreadable store counts as empty), the
      entry is appended, the front is trimmed, and the whole list is written back. */
  function Record(st: Store, e: Entry, bound: int): (r: Store)
    ensures r.Entries?
    ensures r.entries == Append(Load(st), e, bound)
    ensures 1 <= bound ==> |r.entries| <= bound && r.entries[|r.entries| - 1] == e
    ensures bound == 0 ==> r.entries == Load(st) + [e]
  {
    Entries(Append(Load(st), e, bound))
  }

  /** `GET /history/size` */
  function Size(st: Store): nat {
    |Load(st)|
  }

  /** One entry as `GET /history` shows it: both text fields decoded (a missing one decoded
      from the empty text), each left as stored when it does not decode. */
  function Show(e: Entry): (r: Entry)
    ensures r.datetime == e.datetime && r.input.Some? && r.expr.Some?
    ensures e.input.None? ==> r.input == Some("")
    ensures e.input.Some? && !Decodes(e.input.value) ==> r.input == e.input
    ensures e.expr.None? ==> r.expr == Some("")
    ensures e.expr.Some? && !Decodes(e.expr.value) ==> r.expr == e.expr
  {
    Entry(e.datetime, Some(DecodeField(e.input.GetOr(""))), Some(DecodeField(e.expr.GetOr(""))))
  }

  /** `GET /history`: every entry, oldest first, with its fields decoded. */
  function List(st: Store): (r: seq<Entry>)
    ensures |r| == Size(st)
  {
    ShowAll(Load(st))
  }

  /** Every entry of `es` shown, in order. */
  function ShowAll(es: seq<Entry>): (r: seq<Entry>)
    ensures |r| == |es|
  {
    if |es| == 0 then [] else [Show(es[0])] + ShowAll(es[1..])
  }

  /** Position `i` of the listing shows entry `i` of the store. */
  lemma ListAt(st: Store, i: int)
    requires 0 <= i < Size(st)
    ensures List(st)[i] == Show(Load(st)[i])
  {
    ShowAllAt(Load(st), i);
  }

  lemma {:induction false} ShowAllAt(es: seq<Entry>, i: int)
    requires 0 <= i < |es|
    ensures ShowAll(es)[i] == Show(es[i])
    decreases |es|
  {
    if i > 0 {
      ShowAllAt(es[1..], i - 1);
    }
  }

  /** A listed entry that this server recorded shows exactly the submitted texts. */
  lemma ShowRecorded(now: string, input: string, expr: string)
    ensures Show(MakeEntry(now, input, expr)) == Entry(now, Some(input), Some(expr))
  {
    FieldRoundTrip(input);
    FieldRoundTrip(expr);
  }

  /** After a record under a bound `B >= 1`, `GET /history` lists at most `B` entries: the
      newest part of the listing from before, then the new entry exactly as submitted. */
  lemma ListAfterRecord(st: Store, now: string, input: string, expr: string, bound: int)
    requires bound >= 1
    ensures var listed := List(Record(st, MakeEntry(now, input, expr), bound));
      && |listed| == (if Size(st) + 1 <= bound then Size(st) + 1 else bound)
      && listed == List(st)[Size(st) + 1 - |listed|..] + [Entry(now, Some(input), Some(expr))]
  {
    var e := MakeEntry(now, input, expr);
    RecordedTail(st, e, bound);
    ListOfTail(st, e, Record(st, e, bound));
    ShowRecorded(now, input, expr);
  }

  /** Under a bound `B >= 1` the recorded entries are the last `min(n + 1, B)` of the `n`
      old entries followed by `e`. */
  lemma RecordedTail(st: Store, e: Entry, bound: int)
    requires bound >= 1
    ensures var es := Record(st, e, bound).entries;
      && |es| == (if Size(st) + 1 <= bound then Size(st) + 1 else bound)
      && es == (Load(st) + [e])[Size(st) + 1 - |es|..]
  {
    assert Record(st, e, bound).entries == Append(Load(st), e, bound);
  }

  /** A store holding a tail of the entries of `st` followed by `e` lists as the same tail
      of the listing of `st`, followed by `e` shown. */
  lemma ListOfTail(st: Store, e: Entry, r: Store)
    requires r.Entries? && 1 <= |r.entries| <= Size(st) + 1
    requires r.entries == (Load(st) + [e])[Size(st) + 1 - |r.entries|..]
    ensures |List(r)| == |r.entries|
    ensures List(r) == List(st)[Size(st) + 1 - |List(r)|..] + [Show(e)]
  {
    var prior := Load(st);
    var es := r.entries;
    var listed := List(r);
    var want := List(st)[|prior| + 1 - |listed|..] + [Show(e)];
    assert |want| == |listed|;
    forall i | 0 <= i < |listed|
      ensures listed[i] == want[i]
    {
      ListAt(r, i);
      if i < |listed| - 1 {
        ListAt(st, |prior| + 1 - |listed| + i);
        assert es[i] == (prior + [e])[|prior| + 1 - |es| + i];
      } else {
        assert es[i] == e;
      }
    }
  }

  /** A negative bound `-k` keeps `hist[k:]` after the append: with `-1` and an empty
      history even the new entry is dropped. */
  lemma NegativeBoundLosesEntry(e: Entry)
    ensures Append([], e, -1) == []
  {
  }

  /** The result of `POST /history/clear`: the new store and the reported `cleared` count. */
  datatype Cleared = Cleared(store: Store, cleared: int)

  /** `POST /history/clear`: no count, or one that is not an integer, empties the history
      and reports the old size; an integer `n` reports `min(n, size)` and keeps
      `hist[min(n, size):]`. */
  function Clear(st: Store, count: Option<string>): (r: Cleared)
    ensures r.store.Entries?
  {
    var h := Load(st);
    match count
    case None => Cleared(Entries([]), |h|)
    case Some(text) =>
      match Integers.ParseInt(text)
      case None => Cleared(Entries([]), |h|)
      case Some(n) =>
        var cleared := if n <= |h| then n else |h|;
        Cleared(Entries(SliceFrom(h, cleared)), cleared)
  }

  /** Clearing without a usable count empties the history and reports every entry removed. */
  lemma ClearAll(st: Store, count: Option<string>)
    requires count.None? || Integers.ParseInt(count.value).None?
    ensures Clear(st, count) == Cleared(Entries([]), Size(st))
  {
  }

  /** A count `n >= 0` removes exactly the `min(n, size)` oldest entries and reports that
      number; the survivors keep their order. */
  lemma ClearOldest(st: Store, text: string, n: int)
    requires Integers.ParseInt(text) == Some(n) && n >= 0
    ensures var r := Clear(st, Some(text));
      && r.cleared == (if n <= Size(st) then n else Size(st))
      && Load(st) == Load(st)[..r.cleared] + Load(r.store)
      && r.cleared + |Load(r.store)| == Size(st)
  {
    var h := Load(st);
    var c := if n <= |h| then n else |h|;
    assert h == h[..c] + h[c..];
  }

  /** A negative count `n` keeps only the last `|n|` entries, yet reports `n` itself. */
  lemma ClearNegativeCount(st: Store, text: string, n: int)
    requires Integers.ParseInt(text) == Some(n) && n < 0
    ensures var r := Clear(st, Some(text));
      && r.cleared == n
      && |Load(r.store)| == (if -n <= Size(st) then -n else Size(st))
      && Load(r.store) == Load(st)[Size(st) - |Load(r.store)|..]
  {
  }

  /** Records `es` one after another onto the history `h` under `bound`. */
  function RecordAll(h: seq<Entry>, es: seq<Entry>, bound: int): seq<Entry>
    decreases |es|
  {
    if |es| == 0 then h else RecordAll(Append(h, es[0], bound), es[1..], bound)
  }

  /** The last `min(|xs|, bound)` entries of `xs`, oldest first. */
  function Newest(xs: seq<Entry>, bound: nat): (r: seq<Entry>)
    ensures |r| == (if |xs| <= bound then |xs| else bound)
  {
    xs[|xs| - (if |xs| <= bound then |xs| else bound)..]
  }

  /** Under a bound `B >= 1` one append keeps exactly the newest `B` entries. */
  lemma AppendKeepsNewest(h: seq<Entry>, e: Entry, bound: int)
    requires bound >= 1
    ensures Append(h, e, bound) == Newest(h + [e], bound)
  {
    var r := Append(h, e, bound);
    var want := Newest(h + [e], bound);
    assert |r| == |want|;
  }

  /** Appending to the newest entries of a run gives the newest entries of the longer run. */
  lemma AppendNewest(xs: seq<Entry>, e: Entry, bound: int)
    requires bound >= 1
    ensures Append(Newest(xs, bound), e, bound) == Newest(xs + [e], bound)
  {
    var h := Newest(xs, bound);
    var r := Append(h, e, bound);
    var want := Newest(xs + [e], bound);
    assert |r| == |want|;
    forall i | 0 <= i < |r| ensures r[i] == want[i] {
      assert r[i] == (h + [e])[|h| + 1 - |r| + i];
      assert want[i] == (xs + [e])[|xs| + 1 - |r| + i];
    }
  }

  /** Recording a run onto the newest entries of an earlier run keeps the newest entries of
      the whole run. */
  lemma {:induction false} RecordAllKeepsNewest(xs: seq<Entry>, es: seq<Entry>, bound: int)
    requires bound >= 1
    ensures RecordAll(Newest(xs, bound), es, bound) == Newest(xs + es, bound)
    decreases |es|
  {
    if |es| == 0 {
      assert xs + es == xs;
    } else {
      var xs' := xs + [es[0]];
      var h := Newest(xs, bound);
      var h' := Append(h, es[0], bound);
      assert h' == Newest(xs', bound) by {
        AppendNewest(xs, es[0], bound);
      }
      assert RecordAll(h, es, bound) == RecordAll(h', es[1..], bound);
      RecordAllKeepsNewest(xs', es[1..], bound);
      MoveFirst(xs, es);
    }
  }

  /** Moving the first element of `es` to the end of `xs` leaves the concatenation alone. */
  lemma MoveFirst<T>(xs: seq<T>, es: seq<T>)
    requires |es| > 0
    ensures (xs + [es[0]]) + es[1..] == xs + es
  {
    assert es == [es[0]] + es[1..];
  }

  /** After `N` records from an empty history under a bound `B >= 1`, the history holds
      `min(N, B)` entries: the most recent ones, oldest first. */
  lemma {:induction false} RecordFromEmpty(es: seq<Entry>, bound: int)
    requires bound >= 1
    ensures RecordAll([], es, bound) == Newest(es, bound)
  {
    RecordAllKeepsNewest([], es, bound);
    assert Newest([], bound) == [];
    assert [] + es == es;
  }

  /** A bound of zero (`hist[-0:]`) trims nothing: the history grows without limit. */
  lemma {:induction false} ZeroBoundKeepsAll(h: seq<Entry>, es: seq<Entry>)
    ensures RecordAll(h, es, 0) == h + es
    decreases |es|
  {
    if |es| == 0 {
      assert h + es == h;
    } else {
      assert Append(h, es[0], 0) == h + [es[0]];
      ZeroBoundKeepsAll(h + [es[0]], es[1..]);
      assert h + [es[0]] + es[1..] == h + es;
    }
  }
}

=== FILE: integers.dfy ===
/** Python's `int(text)` on a decimal string, and `str(n)` as its inverse. */
module Integers {
  import opened Wrappers

  /** The whitespace `int()` skips around the digits of ASCII text: tab through carriage
      return, and space. The separators 0x1C..0x1F, which `str.isspace()` accepts, are not
      among them. */
  predicate IsSpace(c: char) {
    (9 <= c as int <= 13) || c == ' '
  }

  predicate IsDigit(c: char) {
    '0' <= c <= '9'
  }

  function DigitValue(c: char): (d: nat)
    requires IsDigit(c)
    ensures d < 10
  {
    c as int - '0' as int
  }

  function DigitChar(d: nat): (c: char)
    requires d < 10
    ensures IsDigit(c) && DigitValue(c) == d
  {
    ('0' as int + d) as char
  }

  /** Leading and trailing whitespace (in the sense of `IsSpace`) removed. */
  function Strip(s: string): (r: string)
    ensures |r| > 0 ==> !IsSpace(r[0]) && !IsSpace(r[|r| - 1])
    decreases |s|
  {
    if |s| > 0 && IsSpace(s[0]) then Strip(s[1..])
    else if |s| > 0 && IsSpace(s[|s| - 1]) then Strip(s[..|s| - 1])
    else s
  }

  /** Digits with single underscores between them, as Python 3.6+ accepts. */
  predicate WellFormedDigits(d: string) {
    && |d| > 0
    && IsDigit(d[0])
    && IsDigit(d[|d| - 1])
    && (forall i :: 0 <= i < |d| ==> IsDigit(d[i]) || d[i] == '_')
    && (forall i :: 0 <= i < |d| - 1 ==> !(d[i] == '_' && d[i + 1] == '_'))
  }

  function RemoveUnderscores(d: string): (r: string)
    ensures forall i :: 0 <= i < |r| ==> r[i] != '_'
    ensures (forall i :: 0 <= i < |d| ==> IsDigit(d[i]) || d[i] == '_') ==>
              forall i :: 0 <= i < |r| ==> IsDigit(r[i])
  {
    if |d| == 0 then ""
    else if d[0] == '_' then RemoveUnderscores(d[1..])
    else [d[0]] + RemoveUnderscores(d[1..])
  }

  /** The value of a string of digits, most significant first. */
  function DigitsValue(d: string): nat
    requires forall i :: 0 <= i < |d| ==> IsDigit(d[i])
    decreases |d|
  {
    if |d| == 0 then 0 else DigitsValue(d[..|d| - 1]) * 10 + DigitValue(d[|d| - 1])
  }

  /** An unsigned run of digits and underscores, or `None` when it is malformed. */
  function ParseDigits(d: string): Option<nat> {
    if WellFormedDigits(d) then Some(DigitsValue(RemoveUnderscores(d))) else None
  }

  /** Parses text that has already been stripped: an optional sign, then digits. */
  function ParseSigned(t: string): Option<int> {
    if |t| > 0 && t[0] == '-' then
      match ParseDigits(t[1..])
      case Some(v) => Some(-(v as int))
      case None => None
    else if |t| > 0 && t[0] == '+' then
      match ParseDigits(t[1..])
      case Some(v) => Some(v)
      case None => None
    else
      match ParseDigits(t)
      case Some(v) => Some(v)
      case None => None
  }

  /** `int(s)`: `None` stands for the `ValueError` Python raises. */
  function ParseInt(s: string): Option<int> {
    ParseSigned(Strip(s))
  }

  /** `str(n)` for a natural number: its decimal digits, no leading zero. */
  function FormatNat(n: nat): (r: string)
    ensures |r| > 0
    ensures forall i :: 0 <= i < |r| ==> IsDigit(r[i])
    decreases n
  {
    if n < 10 then [DigitChar(n)] else FormatNat(n / 10) + [DigitChar(n % 10)]
  }

  /** `str(n)` */
  function FormatInt(n: int): string {
    if n < 0 then "-" + FormatNat(-n) else FormatNat(n)
  }

  lemma {:induction false} FormatNatValue(n: nat)
    ensures DigitsValue(FormatNat(n)) == n
    decreases n
  {
    if n >= 10 {
      var r := FormatNat(n);
      assert r[..|r| - 1] == FormatNat(n / 10);
      FormatNatValue(n / 10);
    }
  }

  lemma {:induction false} NoUnderscoresUnchanged(d: string)
    requires forall i :: 0 <= i < |d| ==> IsDigit(d[i])
    ensures RemoveUnderscores(d) == d
    decreases |d|
  {
    if |d| > 0 {
      NoUnderscoresUnchanged(d[1..]);
      assert d == [d[0]] + d[1..];
    }
  }

  lemma StripUnchanged(s: string)
    requires |s| > 0 && !IsSpace(s[0]) && !IsSpace(s[|s| - 1])
    ensures Strip(s) == s
  {
  }

  lemma FormatNatWellFormed(n: nat)
    ensures WellFormedDigits(FormatNat(n))
    ensures RemoveUnderscores(FormatNat(n)) == FormatNat(n)
    ensures DigitsValue(FormatNat(n)) == n
  {
    FormatNatValue(n);
    NoUnderscoresUnchanged(FormatNat(n));
  }

  /** `int(str(n)) == n`: every integer the server reports survives a trip through text. */
  lemma ParseFormatRoundTrip(n: int)
    ensures ParseInt(FormatInt(n)) == Some(n)
  {
    var m: nat := if n < 0 then -n else n;
    var digits := FormatNat(m);
    FormatNatWellFormed(m);
    assert ParseDigits(digits) == Some(m);
    var s := FormatInt(n);
    StripUnchanged(s);
    if n < 0 {
      assert s[1..] == digits;
      assert ParseSigned(s) == Some(n);
    } else {
      assert s == digits && IsDigit(s[0]);
      assert ParseSigned(s) == Some(n);
    }
  }

  /** Empty and blank text never parse. */
  lemma BlankRejected(s: string)
    requires forall i :: 0 <= i < |s| ==> IsSpace(s[i])
    ensures ParseInt(s) == None
  {
    StripBlank(s);
  }

  /** Every character is whitespace. */
  predicate AllSpace(s: string) {
    forall i :: 0 <= i < |s| ==> IsSpace(s[i])
  }

  /** `Strip` cuts only whitespace, and only from the two ends: what it keeps is a slice
      `s[i..j]` whose surroundings are all whitespace. With the contract of `Strip` (the
      slice neither starts nor ends with whitespace) this pins the trimmed text `int()` reads. */
  lemma StripTrims(s: string)
    ensures exists i, j :: 0 <= i <= j <= |s| && Strip(s) == s[i..j] && AllSpace(s[..i]) && AllSpace(s[j..])
  {
    var i, j := StripBounds(s);
  }

  /** The slice bounds of `StripTrims`, found by following the recursion of `Strip`. */
  lemma {:induction false} StripBounds(s: string) returns (i: nat, j: nat)
    ensures i <= j <= |s| && Strip(s) == s[i..j] && AllSpace(s[..i]) && AllSpace(s[j..])
    decreases |s|
  {
    if |s| > 0 && IsSpace(s[0]) {
      var i', j' := StripBounds(s[1..]);
      FrontSpaceShifts(s, i', j');
      i, j := i' + 1, j' + 1;
    } else if |s| > 0 && IsSpace(s[|s| - 1]) {
      i, j := StripBounds(s[..|s| - 1]);
      BackSpaceExtends(s, i, j);
    } else {
      i, j := 0, |s|;
      assert s[0..|s|] == s;
    }
  }

  /** Bounds found in `s[1..]` move one place right in `s` when `s[0]` is whitespace. */
  lemma FrontSpaceShifts(s: string, i: nat, j: nat)
    requires |s| > 0 && IsSpace(s[0]) && i <= j <= |s| - 1
    requires AllSpace(s[1..][..i]) && AllSpace(s[1..][j..])
    ensures s[1..][i..j] == s[i + 1..j + 1]
    ensures AllSpace(s[..i + 1]) && AllSpace(s[j + 1..])
  {
    assert s[1..][j..] == s[j + 1..];
    var front := s[..i + 1];
    forall k | 0 <= k < |front|
      ensures IsSpace(front[k])
    {
      if k > 0 {
        assert front[k] == s[1..][..i][k - 1];
      }
    }
  }

  /** Bounds found in `s[..|s| - 1]` still hold in `s` when its last character is whitespace. */
  lemma BackSpaceExtends(s: string, i: nat, j: nat)
    requires |s| > 0 && IsSpace(s[|s| - 1]) && i <= j <= |s| - 1
    requires AllSpace(s[..|s| - 1][..i]) && AllSpace(s[..|s| - 1][j..])
    ensures s[..|s| - 1][i..j] == s[i..j]
    ensures AllSpace(s[..i]) && AllSpace(s[j..])
  {
    var t := s[..|s| - 1];
    assert t[..i] == s[..i];
    forall k | 0 <= k < |s| - j
      ensures IsSpace(s[j..][k])
    {
      if k < |s| - 1 - j {
        assert s[j..][k] == t[j..][k];
      }
    }
  }

  /** `int("1000")`, the fallback bound, is 1000. */
  lemma ThousandParses()
    ensures ParseInt("1000") == Some(1000)
  {
    ParseFormatRoundTrip(1000);
    assert FormatNat(1) == "1";
    assert FormatNat(10) == "10";
    assert FormatNat(100) == "100";
    assert FormatInt(1000) == "1000";
  }

  /** `int(" 5 ")` is 5: surrounding whitespace is ignored. */
  lemma SpacesAroundIgnored()
    ensures ParseInt(" 5 ") == Some(5)
  {
    assert Strip(" 5 ") == Strip("5 ") == Strip("5") == "5";
    assert ParseDigits("5") == Some(5);
  }

  /** `int("\x1c5")` raises: the separator 0x1C is not skipped around ASCII digits. */
  lemma SeparatorRejected()
    ensures ParseInt("\U{1c}5") == None
    ensures ParseInt("5\U{1f}") == None
  {
    assert Strip("\U{1c}5") == "\U{1c}5";
    assert Strip("5\U{1f}") == "5\U{1f}";
  }

  lemma {:induction false} StripBlank(s: string)
    requires forall i :: 0 <= i < |s| ==> IsSpace(s[i])
    ensures Strip(s) == ""
    decreases |s|
  {
    if |s| > 0 {
      StripBlank(s[1..]);
    }
  }
}

=== FILE: paths.dfy ===
/** POSIX `os.path` operations the handler uses, and its syntactic filename gate. */
module Paths {
  import Strings

  /** `os.sep` */
  const Sep: char := '/'

  /** `os.path.isabs(p)` */
  predicate IsAbs(p: string) {
    |p| > 0 && p[0] == Sep
  }

  /** `os.path.join(a, b)`: an absolute `b` replaces `a`; otherwise a separator is inserted
      unless `a` is empty or already ends in one. */
  function Join(a: string, b: string): string {
    if IsAbs(b) then b
    else if |a| == 0 || a[|a| - 1] == Sep then a + b
    else a + [Sep] + b
  }

  /** `os.path.basename(p)`: what follows the last separator. */
  function Basename(p: string): (r: string)
    ensures |r| <= |p| && r == p[|p| - |r|..]
    ensures Sep !in r
    ensures Sep !in p ==> r == p
    ensures |r| < |p| ==> p[|p| - |r| - 1] == Sep
    decreases |p|
  {
    if |p| == 0 then ""
    else if p[|p| - 1] == Sep then ""
    else
      assert p == p[..|p| - 1] + [p[|p| - 1]];
      Basename(p[..|p| - 1]) + [p[|p| - 1]]
  }

  /** A name is its own base name exactly when it holds no separator. */
  lemma BasenameFixed(p: string)
    ensures Basename(p) == p <==> Sep !in p
  {
  }

  /** The gate of the file-content route: the name must be its own base name and hold no
      `..` anywhere and no `/` or `\`. It looks at the text alone. */
  predicate SafeName(f: string) {
    Basename(f) == f && !Strings.Contains(f, "..") && '/' !in f && '\\' !in f
  }

  /** Whatever passes the gate is a single path component, joined below the directory. */
  lemma SafeNameIsComponent(dir: string, f: string)
    requires SafeName(f)
    ensures forall i :: 0 <= i < |f| ==> f[i] != '/' && f[i] != '\\'
    ensures forall i :: 0 <= i && i + 1 < |f| ==> !(f[i] == '.' && f[i + 1] == '.')
    ensures Join(dir, f) == (if |dir| == 0 || dir[|dir| - 1] == Sep then dir + f else dir + [Sep] + f)
  {
    Strings.ContainsIff(f, "..");
    forall i | 0 <= i && i + 1 < |f| ensures !(f[i] == '.' && f[i + 1] == '.') {
      if f[i] == '.' && f[i + 1] == '.' {
        assert Strings.OccursAt(f, "..", i);
      }
    }
  }

  /** The gate refuses a name exactly when it has a separator, a backslash or a `..`. */
  lemma SafeNameIff(f: string)
    ensures SafeName(f) <==>
      ('/' !in f && '\\' !in f && !exists i :: Strings.OccursAt(f, "..", i))
  {
    Strings.ContainsIff(f, "..");
  }

  /** `.` is a bare name without `..`, so the gate lets it through. */
  lemma DotIsSafe()
    ensures SafeName(".")
  {
    assert Sep !in ".";
    assert !Strings.Contains("", "..");
    assert !Strings.Contains(".", "..");
  }
}

=== FILE: render.dfy ===
/** The render pipeline: detect the input format, evaluate the template against the parsed
    data, and classify the output. The parsers and the template engine are parameters. */
module Render {
  import opened Wrappers
  import Strings

  /** The two handler revisions: the current one (JSON then YAML) and the older JSON-only one. */
  datatype Variant = Current | Snapshot

  /** A parsed document; numbers keep their literal text. */
  datatype Value =
    | Null
    | Bool(b: bool)
    | Number(literal: string)
    | Str(s: string)
    | Array(items: seq<Value>)
    | Object(fields: map<string, Value>)

  /** The `X-Input-Format` tag. */
  datatype Format = JSON | YAML

  /** The `X-Result-Type` tag: `json` or `string`. */
  datatype ResultType = JsonResult | StringResult

  /** What `yaml.safe_load` does: a value, `None` for an empty or null document, a
      `yaml.YAMLError`, or some other exception. */
  datatype YamlOutcome = YamlValue(value: Value) | YamlNull | YamlError(message: string) | YamlCrash(message: string)

  /** The foreign code the pipeline calls: `json.loads` (an `Err` is a `JSONDecodeError`),
      `yaml.safe_load`, `json.dumps(v, indent=2)`, and the sandboxed Jinja2 evaluation of a
      template with the data bound as `data` (an `Err` is any exception it raises). */
  datatype Engines = Engines(
    jsonLoads: string -> Result<Value>,
    yamlLoad: string -> YamlOutcome,
    jsonDumps: Value -> string,
    evaluate: (string, Value) -> Result<string>)

  /** Parsing the input: the data and its format, or the text of the 400 reply. */
  datatype Parsed = ParsedAs(data: Value, format: Format) | Unparsable(message: string)

  /** The words of the 400 reply that say both formats were tried. */
  const BothFormatsTag: string := "tried JSON and YAML"
  const BothFormatsPrefix: string := "Input parsing error (" + BothFormatsTag + "): "

  /** JSON first; the current handler falls back to YAML when JSON decoding fails, reading
      a null document as `{}`; the older one reports the JSON error. */
  function ParseInput(v: Variant, e: Engines, text: string): (r: Parsed)
    ensures e.jsonLoads(text).Ok? ==> r == ParsedAs(e.jsonLoads(text).value, JSON)
    ensures r.ParsedAs? && r.format == YAML ==> v == Current && e.jsonLoads(text).Err?
  {
    match e.jsonLoads(text)
    case Ok(data) => ParsedAs(data, JSON)
    case Err(jsonError) =>
      match v
      case Snapshot => Unparsable("JSON parsing error: " + jsonError)
      case Current =>
        match e.yamlLoad(text)
        case YamlValue(data) => ParsedAs(data, YAML)
        case YamlNull => ParsedAs(Object(map[]), YAML)
        case YamlError(m) => Unparsable(BothFormatsPrefix + m)
        case YamlCrash(m) => Unparsable("Input parsing error: " + m)
  }

  /** The format tag against an independent reading of the two parsers: `JSON` exactly when
      JSON accepts the text; `YAML` exactly when JSON refuses it and YAML accepts it (null
      included); a failure otherwise. The older handler never answers `YAML`. */
  lemma FormatDecision(v: Variant, e: Engines, text: string)
    ensures var r := ParseInput(v, e, text);
      var yamlAccepts := e.yamlLoad(text).YamlValue? || e.yamlLoad(text).YamlNull?;
      && (r.ParsedAs? && r.format == JSON <==> e.jsonLoads(text).Ok?)
      && (r.ParsedAs? && r.format == YAML <==> v == Current && e.jsonLoads(text).Err? && yamlAccepts)
      && (r.Unparsable? <==> e.jsonLoads(text).Err? && (v == Snapshot || !yamlAccepts))
  {
  }

  /** A YAML null document (the empty input, for one) becomes the empty mapping. */
  lemma YamlNullIsEmptyMapping(e: Engines, text: string)
    requires e.jsonLoads(text).Err? && e.yamlLoad(text) == YamlNull
    ensures ParseInput(Current, e, text) == ParsedAs(Object(map[]), YAML)
  {
  }

  /** Text that neither parser accepts is refused with a message naming both formats. */
  lemma BothRefusedNamesBoth(e: Engines, text: string)
    requires e.jsonLoads(text).Err? && e.yamlLoad(text).YamlError?
    ensures var r := ParseInput(Current, e, text);
      r.Unparsable? && Strings.Contains(r.message, BothFormatsTag)
  {
    var r := ParseInput(Current, e, text);
    var lead := "Input parsing error (";
    var m := e.yamlLoad(text).message;
    assert r.message == lead + BothFormatsTag + "): " + m;
    assert r.message[|lead|..|lead| + |BothFormatsTag|] == BothFormatsTag;
    Strings.ContainsAt(r.message, BothFormatsTag, |lead|);
  }

  /** The older handler refuses every text JSON refuses, with the JSON error. */
  lemma SnapshotIsJsonOnly(e: Engines, text: string)
    requires e.jsonLoads(text).Err?
    ensures ParseInput(Snapshot, e, text) == Unparsable("JSON parsing error: " + e.jsonLoads(text).message)
  {
  }

  /** Output that parses as JSON is pretty-printed and tagged `json`; anything else is
      returned as rendered and tagged `string`. */
  function Normalize(e: Engines, output: string): (string, ResultType) {
    match e.jsonLoads(output)
    case Ok(parsed) => (e.jsonDumps(parsed), JsonResult)
    case Err(_) => (output, StringResult)
  }

  /** A finished render: the reply text and both tags, or the text of the 400 reply. */
  datatype Outcome =
    | Rendered(output: string, resultType: ResultType, format: Format)
    | Failed(message: string)

  /** Parse the input, evaluate the template, normalise the output. A parse or evaluation
      failure ends the render with the text of the 400 reply. */
  function Run(v: Variant, e: Engines, text: string, template: string): (r: Outcome)
    ensures r.Rendered? <==>
              ParseInput(v, e, text).ParsedAs? && e.evaluate(template, ParseInput(v, e, text).data).Ok?
    ensures r.Rendered? ==>
              var p := ParseInput(v, e, text);
              var out := e.evaluate(template, p.data).value;
              && r.format == p.format
              && (r.resultType == JsonResult <==> e.jsonLoads(out).Ok?)
              && (r.resultType == JsonResult ==> r.output == e.jsonDumps(e.jsonLoads(out).value))
              && (r.resultType == StringResult ==> r.output == out)
  {
    match ParseInput(v, e, text)
    case Unparsable(m) => Failed(m)
    case ParsedAs(data, format) =>
      match e.evaluate(template, data)
      case Err(m) => Failed("Jinja expression error: " + m)
      case Ok(out) =>
        var (shown, kind) := Normalize(e, out);
        Rendered(shown, kind, format)
  }
}

=== FILE: requests.dfy ===
/** The part of an HTTP request the handler looks at, after URL and form decoding. */
module Requests {
  import opened Wrappers

  datatype Method = GET | POST

  /** `parse_qs(...)` reduced to the first value of each name (`params.get(k, [d])[0]`). */
  type Params = map<string, string>

  /** A request: its method (`verb`), the path with the query removed, and its decoded parameters
      (from the query string for GET, from the form body for POST). */
  datatype Request = Request(verb: Method, path: string, params: Params)

  /** `params.get(name, [None])[0]` */
  function Lookup(params: Params, name: string): Option<string> {
    if name in params then Some(params[name]) else None
  }

  /** `params.get(name, [default])[0]` */
  function LookupOr(params: Params, name: string, default: string): string {
    if name in params then params[name] else default
  }

  /** The handler's `if not value` test on an optional parameter: missing or empty. */
  predicate Blank(v: Option<string>) {
    v.None? || v.value == ""
  }
}

=== FILE: router.dfy ===
/** Route dispatch: an exact match on the method and the query-free path. */
module Router {
  import opened Requests
  import opened Render

  /** The handler a request reaches. */
  datatype Handler =
    | ListHistory | HistorySize | HistoryMaxSize | ReadSettings | ListInputFiles | ReadInputFile | ServePage
    | ClearHistory | WriteSettings | RenderTemplate
    | NotFound

  /** The chain of path comparisons of `do_GET` and `do_POST`; the fixture routes exist
      only in the current handler. */
  function Route(v: Variant, m: Method, path: string): Handler {
    match m
    case GET =>
      if path == "/history" then ListHistory
      else if path == "/history/size" then HistorySize
      else if path == "/history/maxsize" then HistoryMaxSize
      else if path == "/settings" then ReadSettings
      else if v == Current && path == "/input-files" then ListInputFiles
      else if v == Current && path == "/input-file-content" then ReadInputFile
      else if path == "/" then ServePage
      else NotFound
    case POST =>
      if path == "/history/clear" then ClearHistory
      else if path == "/settings" then WriteSettings
      else if path == "/render" then RenderTemplate
      else NotFound
  }

  /** The HTTP surface as a table of (method, path) to handler. */
  function Table(v: Variant): map<(Method, string), Handler> {
    var shared := map[
      (GET, "/history") := ListHistory,
      (GET, "/history/size") := HistorySize,
      (GET, "/history/maxsize") := HistoryMaxSize,
      (GET, "/settings") := ReadSettings,
      (GET, "/") := ServePage,
      (POST, "/history/clear") := ClearHistory,
      (POST, "/settings") := WriteSettings,
      (POST, "/render") := RenderTemplate];
    match v
    case Snapshot => shared
    case Current => shared[(GET, "/input-files") := ListInputFiles][(GET, "/input-file-content") := ReadInputFile]
  }

  /** The dispatch chain is the table: a listed (method, path) reaches its handler and every
      other request reaches `NotFound`, which the handler answers with 404. */
  lemma RouteIsTable(v: Variant, m: Method, path: string)
    ensures (m, path) in Table(v) ==> Route(v, m, path) == Table(v)[(m, path)]
    ensures (m, path) !in Table(v) <==> Route(v, m, path) == NotFound
  {
  }

  /** A path is routed by one method only (apart from `/settings`), so the wrong method
      gets 404: `GET /render` and `POST /` among them. */
  lemma WrongMethodNotFound(v: Variant)
    ensures forall p :: Route(v, GET, p) != NotFound && Route(v, POST, p) != NotFound ==> p == "/settings"
    ensures Route(v, GET, "/render") == NotFound
    ensures Route(v, GET, "/history/clear") == NotFound
    ensures Route(v, POST, "/") == NotFound
    ensures Route(v, POST, "/history") == NotFound
    ensures Route(v, POST, "/input-files") == NotFound
    ensures Route(v, GET, "/invalid_path") == NotFound
  {
  }

  /** The two revisions route alike except that the older one lacks the fixture routes. */
  lemma VariantsRouteAlike(m: Method, path: string)
    ensures Route(Snapshot, m, path) != NotFound ==> Route(Current, m, path) == Route(Snapshot, m, path)
    ensures Route(Current, m, path) != Route(Snapshot, m, path) <==>
              m == GET && (path == "/input-files" || path == "/input-file-content")
  {
  }
}

=== FILE: server.dfy ===
/** The whole request handler over one in-memory server state: the settings, the current
    history bound (`MAX_ENTRIES`) and the history store. */
module Server {
  import opened Wrappers
  import opened Requests
  import Integers
  import Config
  import History
  import Fixtures
  import Render
  import opened Router

  /** The server's mutable state. */
  datatype State = State(config: Config.Store, bound: int, history: History.Store)

  /** What a request handler sees besides the state: which revision runs, the directory of
      the script, the parsers and template engine, and the filesystem. */
  datatype Env = Env(variant: Render.Variant, scriptDir: string, engines: Render.Engines, fs: Fixtures.FileSystem)

  /** The reply body, one alternative per kind of answer. */
  datatype Body =
    | Page
    | HistoryListing(entries: seq<History.Entry>)
    | SizeReport(size: int)
    | MaxSize(maxSize: int)
    | Settings(view: Config.View)
    | SettingsUpdated(section: string, values: Config.Section)
    | FileNames(names: seq<string>)
    | FileContent(text: string)
    | ClearSummary(cleared: int, size: int)
    | RenderOutput(text: string, resultType: Render.ResultType, inputFormat: Option<Render.Format>)
    | ErrorText(message: string)

  datatype Response = Response(status: int, body: Body)

  /** A handled request: the next state and the reply. */
  datatype Step = Step(state: State, response: Response)

  /** The settings written on first start, when no settings file exists. */
  function DefaultConfig(v: Render.Variant): Config.Store {
    var history := map[Config.HistorySection := map[Config.MaxEntriesKey := "1000"]];
    match v
    case Snapshot => history
    case Current =>
      history[Config.InputSection := map[Config.DirectoryKey := "jinja2_eval_web_inputs", "refresh_interval" := "1"]]
  }

  /** Start-up: the settings file if present, else the defaults; the bound is read from
      `history.max_entries`, and is 1000 when the settings lack that key. `None`: the value
      does not parse and start-up raises. */
  function Start(v: Render.Variant, settingsFile: Option<Config.Store>, history: History.Store): (r: Option<State>)
    ensures r.Some? ==> r.value.history == history
    ensures settingsFile.None? ==> r.Some? ==> r.value.config == DefaultConfig(v)
    ensures settingsFile.Some? ==> r.Some? ==> r.value.config == settingsFile.value
    ensures var cfg := settingsFile.GetOr(DefaultConfig(v));
      var present := Config.HistorySection in cfg && Config.MaxEntriesKey in cfg[Config.HistorySection];
      && (!present ==> r == Some(State(cfg, 1000, history)))
      && (present ==> (r.Some? <==> Integers.ParseInt(cfg[Config.HistorySection][Config.MaxEntriesKey]).Some?))
      && (present && r.Some? ==> r.value.bound == Integers.ParseInt(cfg[Config.HistorySection][Config.MaxEntriesKey]).value)
  {
    Integers.ThousandParses();
    var cfg := settingsFile.GetOr(DefaultConfig(v));
    match Integers.ParseInt(Config.Get(cfg, Config.HistorySection, Config.MaxEntriesKey, "1000"))
    case Some(bound) => Some(State(cfg, bound, history))
    case None => None
  }

  /** `do_GET` and `do_POST`: route the request, run its handler. `now` is the clock reading
      a recorded render is stamped with. */
  function Handle(env: Env, s: State, req: Request, now: string): Step {
    match Router.Route(env.variant, req.verb, req.path)
    case ListHistory => Step(s, Response(200, HistoryListing(History.List(s.history))))
    case HistorySize => Step(s, Response(200, SizeReport(History.Size(s.history))))
    case HistoryMaxSize => Step(s, Response(200, MaxSize(s.bound)))
    case ReadSettings => Step(s, Response(200, Settings(Config.Read(s.config, Lookup(req.params, Config.SectionField)))))
    case ListInputFiles => Step(s, Response(200, FileNames(Fixtures.ListFiles(env.fs, env.scriptDir, s.config))))
    case ReadInputFile =>
      (match Fixtures.ReadFile(env.fs, env.scriptDir, s.config, Lookup(req.params, "filename"))
       case Served(content) => Step(s, Response(200, FileContent(content)))
       case Refused(status, message) => Step(s, Response(status, ErrorText(message))))
    case ServePage => Step(s, Response(200, Page))
    case NotFound =>
      Step(s, Response(404, ErrorText(if req.verb == GET then "File not found" else "Endpoint not found")))
    case ClearHistory =>
      var c := History.Clear(s.history, Lookup(req.params, "count"));
      Step(s.(history := c.store), Response(200, ClearSummary(c.cleared, History.Size(c.store))))
    case WriteSettings =>
      (match Config.Write(s.config, s.bound, req.params)
       case MissingSection => Step(s, Response(400, ErrorText("Missing section parameter")))
       case Written(cfg, bound, section, values) =>
         Step(s.(config := cfg, bound := bound), Response(200, SettingsUpdated(section, values))))
    case RenderTemplate => RenderStep(env, s, LookupOr(req.params, "json", ""), LookupOr(req.params, "expr", ""), now)
  }

  /** `POST /render` with input `text` and template `expr`. A successful render is recorded
      and answered with its tags (the older handler sends no input-format tag). */
  function RenderStep(env: Env, s: State, text: string, expr: string, now: string): Step {
    match Render.Run(env.variant, env.engines, text, expr)
    case Failed(message) => Step(s, Response(400, ErrorText(message)))
    case Rendered(output, kind, format) =>
      var tag := if env.variant == Render.Current then Some(format) else None;
      Step(s.(history := History.Record(s.history, History.MakeEntry(now, text, expr), s.bound)),
           Response(200, RenderOutput(output, kind, tag)))
  }

  /** Requests that only read: every GET, and every request no route knows. They leave the
      state as it was. */
  lemma ReadsLeaveStateAlone(env: Env, s: State, req: Request, now: string)
    requires req.verb == GET || Router.Route(env.variant, req.verb, req.path) == Router.NotFound
    ensures Handle(env, s, req, now).state == s
  {
  }

  /** Unknown (method, path) pairs are answered 404. */
  lemma UnknownRouteIs404(env: Env, s: State, req: Request, now: string)
    requires (req.verb, req.path) !in Router.Table(env.variant)
    ensures Handle(env, s, req, now).response.status == 404
  {
    Router.RouteIsTable(env.variant, req.verb, req.path);
  }

  /** A render changes the history exactly when parsing and evaluation both succeed: then it
      answers 200 and records one entry; otherwise it answers 400 and changes nothing. */
  lemma RenderRecordsIffSuccess(env: Env, s: State, text: string, expr: string, now: string)
    ensures var st := RenderStep(env, s, text, expr, now);
      var parsed := Render.ParseInput(env.variant, env.engines, text);
      var ok := parsed.ParsedAs? && env.engines.evaluate(expr, parsed.data).Ok?;
      && (st.response.status == 200 <==> ok)
      && (!ok ==> st.response.status == 400 && st == Step(s, st.response))
      && (ok ==> st.state == s.(history := History.Record(s.history, History.MakeEntry(now, text, expr), s.bound)))
  {
  }

  /** With a bound of at least one, a successful render leaves the history within the bound
      and its newest entry lists back as the submitted input and template. */
  lemma RenderedEntryListsBack(env: Env, s: State, text: string, expr: string, now: string)
    requires s.bound >= 1
    requires RenderStep(env, s, text, expr, now).response.status == 200
    ensures var h := RenderStep(env, s, text, expr, now).state.history;
      var listed := History.List(h);
      && History.Size(h) <= s.bound
      && |listed| > 0
      && listed[|listed| - 1] == History.Entry(now, Some(text), Some(expr))
  {
    var e := History.MakeEntry(now, text, expr);
    History.ShowRecorded(now, text, expr);
    var h := History.Record(s.history, e, s.bound);
    assert RenderStep(env, s, text, expr, now).state.history == h;
    History.ListAt(h, History.Size(h) - 1);
  }

  /** On a successful render, `X-Result-Type` is `json` exactly when the evaluated output
      parses as JSON, and then the reply is that JSON re-serialised; otherwise it is the
      output as evaluated. Only the current handler sends `X-Input-Format`. */
  lemma RenderTags(env: Env, s: State, text: string, expr: string, now: string)
    requires RenderStep(env, s, text, expr, now).response.status == 200
    ensures var body := RenderStep(env, s, text, expr, now).response.body;
      var parsed := Render.ParseInput(env.variant, env.engines, text);
      var out := env.engines.evaluate(expr, parsed.data).value;
      && body.RenderOutput?
      && (body.resultType == Render.JsonResult <==> env.engines.jsonLoads(out).Ok?)
      && (body.resultType == Render.JsonResult ==> body.text == env.engines.jsonDumps(env.engines.jsonLoads(out).value))
      && (body.resultType == Render.StringResult ==> body.text == out)
      && (body.inputFormat.Some? <==> env.variant == Render.Current)
      && (body.inputFormat.Some? ==> body.inputFormat.value == parsed.format)
  {
  }

  /** Both revisions answer every request alike except renders and the fixture routes:
      history, settings and clear are shared code. */
  lemma VariantsAgreeOutsideRender(env: Env, s: State, req: Request, now: string)
    requires req.path != "/render" && req.path != "/input-files" && req.path != "/input-file-content"
    ensures Handle(env.(variant := Render.Current), s, req, now) == Handle(env.(variant := Render.Snapshot), s, req, now)
  {
  }

  /** On first start with a readable history, the settings are the defaults and the bound
      is 1000; the older revision writes only `history.max_entries`. */
  lemma FirstStart(v: Render.Variant, history: History.Store)
    ensures Start(v, None, history) == Some(State(DefaultConfig(v), 1000, history))
    ensures DefaultConfig(Render.Snapshot) == map["history" := map["max_entries" := "1000"]]
  {
    Integers.ThousandParses();
    assert Config.Get(DefaultConfig(v), Config.HistorySection, Config.MaxEntriesKey, "1000") == "1000";
  }

  /** The end-to-end case of the test suite: after a successful render into an empty history,
      `GET /history` lists exactly one entry holding the submitted input and template. */
  lemma RenderThenList(env: Env, s: State, text: string, expr: string, now: string)
    requires s.bound >= 1 && History.Size(s.history) == 0
    requires RenderStep(env, s, text, expr, now).response.status == 200
    ensures var s' := RenderStep(env, s, text, expr, now).state;
      Handle(env, s', Request(GET, "/history", map[]), now).response ==
        Response(200, HistoryListing([History.Entry(now, Some(text), Some(expr))]))
  {
    var s' := RenderStep(env, s, text, expr, now).state;
    var e := History.MakeEntry(now, text, expr);
    RenderRecordsIffSuccess(env, s, text, expr, now);
    assert Route(env.variant, GET, "/history") == ListHistory;
    assert s'.history == History.Record(s.history, e, s.bound);
    assert History.Load(s.history) == [];
    assert History.Append([], e, s.bound) == [e];
    History.ListAt(s'.history, 0);
    assert History.List(s'.history) == [History.Show(e)];
    History.ShowRecorded(now, text, expr);
  }

  /** A settings write is what `GET /settings?section=...` then shows for that section: the
      merged section, holding every posted key with its posted value. */
  lemma ReadAfterWrite(env: Env, s: State, params: Params, now: string)
    requires !Blank(Lookup(params, Config.SectionField))
    ensures var w := Config.Write(s.config, s.bound, params);
      var section := params[Config.SectionField];
      var s' := Handle(env, s, Request(POST, "/settings", params), now).state;
      && Handle(env, s', Request(GET, "/settings", map[Config.SectionField := section]), now).response
           == Response(200, Settings(Config.OneSection(w.values)))
      && (forall k :: k in params && k != Config.SectionField ==> k in w.values && w.values[k] == params[k])
  {
    var w := Config.Write(s.config, s.bound, params);
    assert Route(env.variant, POST, "/settings") == WriteSettings;
    assert Route(env.variant, GET, "/settings") == ReadSettings;
    Config.ReadAfterWrite(s.config, s.bound, params);
    assert Handle(env, s, Request(POST, "/settings", params), now).state.config == w.config;
  }

  /** A settings write without a section name (missing or empty) is refused with 400 and
      changes nothing: no section is created, the bound stays and the history stays. */
  lemma MissingSectionRefused(env: Env, s: State, params: Params, now: string)
    requires Blank(Lookup(params, Config.SectionField))
    ensures Handle(env, s, Request(POST, "/settings", params), now)
              == Step(s, Response(400, ErrorText("Missing section parameter")))
  {
    assert Route(env.variant, POST, "/settings") == WriteSettings;
  }

  /** A settings write of `history.max_entries = str(n)` is what `GET /history/maxsize`
      then reports; the bound is used by the next render. */
  lemma MaxSizeFollowsSettings(env: Env, s: State, params: Params, n: int, now: string)
    requires Lookup(params, Config.SectionField) == Some(Config.HistorySection)
    requires Config.MaxEntriesKey in params && params[Config.MaxEntriesKey] == Integers.FormatInt(n)
    ensures var s' := Handle(env, s, Request(POST, "/settings", params), now).state;
      Handle(env, s', Request(GET, "/history/maxsize", map[]), now).response == Response(200, MaxSize(n))
  {
    Config.FormattedBoundApplies(s.config, s.bound, params, n);
    SettingsMoveBound(env, s, params, now);
    MaxSizeReportsBound(env, Handle(env, s, Request(POST, "/settings", params), now).state, now);
  }

  /** A settings write that names a section leaves the bound the write computed. */
  lemma SettingsMoveBound(env: Env, s: State, params: Params, now: string)
    requires !Blank(Lookup(params, Config.SectionField))
    ensures Handle(env, s, Request(POST, "/settings", params), now).state.bound
      == Config.Write(s.config, s.bound, params).bound
  {
    assert Route(env.variant, POST, "/settings") == WriteSettings;
  }

  /** `GET /history/maxsize` reports the bound in force. */
  lemma MaxSizeReportsBound(env: Env, s: State, now: string)
    ensures Handle(env, s, Request(GET, "/history/maxsize", map[]), now).response == Response(200, MaxSize(s.bound))
  {
    assert Route(env.variant, GET, "/history/maxsize") == HistoryMaxSize;
  }

  /** `POST /history/clear` with no count empties the history and reports the old size. */
  lemma ClearWithoutCount(env: Env, s: State, now: string)
    ensures var st := Handle(env, s, Request(POST, "/history/clear", map[]), now);
      && st.response == Response(200, ClearSummary(History.Size(s.history), 0))
      && History.Size(st.state.history) == 0
  {
  }
}

=== FILE: sorting.dfy ===
/** Python's `list.sort()` on a list of `str`: ascending code-point lexicographic order. */
module Sorting {

  /** `a <= b` on Python strings: compare code points left to right; a proper prefix is smaller. */
  predicate LexLe(a: string, b: string)
    decreases |a|
  {
    |a| == 0 || (|b| > 0 && (a[0] < b[0] || (a[0] == b[0] && LexLe(a[1..], b[1..]))))
  }

  lemma {:induction false} LexLeTotal(a: string, b: string)
    ensures LexLe(a, b) || LexLe(b, a)
    decreases |a|
  {
    if |a| > 0 && |b| > 0 && a[0] == b[0] {
      LexLeTotal(a[1..], b[1..]);
    }
  }

  lemma {:induction false} LexLeTransitive(a: string, b: string, c: string)
    requires LexLe(a, b) && LexLe(b, c)
    ensures LexLe(a, c)
    decreases |a|
  {
    if |a| > 0 && a[0] == b[0] && b[0] == c[0] {
      LexLeTransitive(a[1..], b[1..], c[1..]);
    }
  }

  lemma {:induction false} LexLeAntisymmetric(a: string, b: string)
    requires LexLe(a, b) && LexLe(b, a)
    ensures a == b
    decreases |a|
  {
    if |a| > 0 {
      LexLeAntisymmetric(a[1..], b[1..]);
      assert a == [a[0]] + a[1..];
      assert b == [b[0]] + b[1..];
    }
  }

  /** Every earlier element is lexicographically at most every later one. */
  predicate Sorted(s: seq<string>) {
    forall i, j :: 0 <= i < j < |s| ==> LexLe(s[i], s[j])
  }

  /** Inserts `x` into the sorted `s` in front of the first element it does not exceed. */
  function Insert(x: string, s: seq<string>): (r: seq<string>)
    requires Sorted(s)
    ensures Sorted(r)
    ensures multiset(r) == multiset(s) + multiset{x}
    decreases |s|
  {
    if |s| == 0 then [x]
    else if LexLe(x, s[0]) then
      BelowHead(x, s);
      [x] + s
    else
      assert s == [s[0]] + s[1..];
      var tail := Insert(x, s[1..]);
      LexLeTotal(x, s[0]);
      HeadBelowAll(s[0], x, s[1..], tail);
      [s[0]] + tail
  }

  /** An element at most the head of a sorted sequence is at most all of it. */
  lemma BelowHead(x: string, s: seq<string>)
    requires Sorted(s) && |s| > 0 && LexLe(x, s[0])
    ensures Sorted([x] + s)
  {
    forall j | 0 <= j < |s| ensures LexLe(x, s[j]) {
      if j > 0 { LexLeTransitive(x, s[0], s[j]); }
    }
  }

  /** `h` in front of a sorted rearrangement of `x` and elements `h` does not exceed. */
  lemma HeadBelowAll(h: string, x: string, rest: seq<string>, t: seq<string>)
    requires Sorted(t) && LexLe(h, x)
    requires forall k :: 0 <= k < |rest| ==> LexLe(h, rest[k])
    requires multiset(t) == multiset(rest) + multiset{x}
    ensures Sorted([h] + t)
  {
    forall k | 0 <= k < |t| ensures LexLe(h, t[k]) {
      assert t[k] in multiset(t);
      if t[k] != x {
        assert t[k] in multiset(rest);
      }
    }
  }

  /** `sorted(s)`: the ascending arrangement of exactly the elements of `s`. */
  function Sort(s: seq<string>): (r: seq<string>)
    ensures Sorted(r)
    ensures multiset(r) == multiset(s)
    decreases |s|
  {
    if |s| == 0 then []
    else
      assert s == [s[0]] + s[1..];
      Insert(s[0], Sort(s[1..]))
  }

  lemma {:induction false} LexLeReflexive(a: string)
    ensures LexLe(a, a)
    decreases |a|
  {
    if |a| > 0 {
      LexLeReflexive(a[1..]);
    }
  }

  /** There is only one sorted arrangement of a multiset of strings, so `Sort` is the
      sorted arrangement, whatever algorithm produced it. */
  lemma {:induction false} SortedUnique(a: seq<string>, b: seq<string>)
    requires Sorted(a) && Sorted(b)
    requires multiset(a) == multiset(b)
    ensures a == b
    decreases |a|
  {
    if |a| > 0 {
      assert |b| == |multiset(b)| == |multiset(a)| == |a|;
      assert a[0] in multiset(b);
      assert b[0] in multiset(a);
      var i :| 0 <= i < |b| && b[i] == a[0];
      var j :| 0 <= j < |a| && a[j] == b[0];
      LexLeReflexive(a[0]);
      assert LexLe(b[0], a[0]) by { if i > 0 { assert LexLe(b[0], b[i]); } }
      assert LexLe(a[0], b[0]) by { if j > 0 { assert LexLe(a[0], a[j]); } }
      LexLeAntisymmetric(a[0], b[0]);
      assert a == [a[0]] + a[1..];
      assert b == [b[0]] + b[1..];
      assert multiset(a) == multiset{a[0]} + multiset(a[1..]);
      assert multiset(b) == multiset{b[0]} + multiset(b[1..]);
      assert multiset(a[1..]) == multiset(a) - multiset{a[0]};
      assert multiset(b[1..]) == multiset(b) - multiset{b[0]};
      SortedUnique(a[1..], b[1..]);
    }
  }

  /** No element occurs twice. */
  predicate Distinct(s: seq<string>) {
    forall i, j :: 0 <= i < j < |s| ==> s[i] != s[j]
  }

  /** A repeated element is counted at least twice. */
  lemma RepeatCounted(t: seq<string>, i: int, j: int)
    requires 0 <= i < j < |t| && t[i] == t[j]
    ensures multiset(t)[t[i]] >= 2
  {
    assert t == t[..i] + [t[i]] + t[i + 1..j] + [t[j]] + t[j + 1..];
    assert multiset(t) == multiset(t[..i]) + multiset{t[i]} + multiset(t[i + 1..j])
      + multiset{t[j]} + multiset(t[j + 1..]);
  }

  lemma {:induction false} DistinctCount(s: seq<string>, x: string)
    requires Distinct(s)
    ensures multiset(s)[x] <= 1
    decreases |s|
  {
    if |s| > 0 {
      assert s == [s[0]] + s[1..];
      assert multiset(s) == multiset{s[0]} + multiset(s[1..]);
      DistinctCount(s[1..], x);
      if x == s[0] {
        assert x !in s[1..];
      }
    }
  }

  /** Rearranging a sequence without duplicates (as `Sort` does) keeps it free of duplicates. */
  lemma PermutationKeepsDistinct(s: seq<string>, t: seq<string>)
    requires Distinct(s)
    requires multiset(s) == multiset(t)
    ensures Distinct(t)
  {
    forall i, j | 0 <= i < j < |t| ensures t[i] != t[j] {
      DistinctCount(s, t[i]);
      if t[i] == t[j] {
        RepeatCounted(t, i, j);
      }
    }
  }
}

=== FILE: strings.dfy ===
/** String predicates used by the handler: prefix tests and substring search (`in` on str). */
module Strings {

  /** `s.startswith(p)` */
  predicate StartsWith(s: string, p: string) {
    |p| <= |s| && s[..|p|] == p
  }

  /** `sub` occurs in `s` starting at index `i`. */
  predicate OccursAt(s: string, sub: string, i: int) {
    0 <= i && i + |sub| <= |s| && s[i..i + |sub|] == sub
  }

  /** Python's `sub in s`, computed by scanning the start positions left to right. */
  predicate Contains(s: string, sub: string)
    decreases |s|
  {
    StartsWith(s, sub) || (|s| > 0 && Contains(s[1..], sub))
  }

  /** Occurrences in `s[1..]` are the occurrences in `s` past position 0, shifted by one. */
  lemma ShiftOccurrences(s: string, sub: string)
    requires |s| > 0
    ensures forall i :: OccursAt(s[1..], sub, i) ==> OccursAt(s, sub, i + 1)
    ensures forall i :: OccursAt(s, sub, i) && i > 0 ==> OccursAt(s[1..], sub, i - 1)
  {
    forall i | OccursAt(s[1..], sub, i) ensures OccursAt(s, sub, i + 1) {
      assert s[1..][i..i + |sub|] == s[i + 1..i + 1 + |sub|];
    }
    forall i | OccursAt(s, sub, i) && i > 0 ensures OccursAt(s[1..], sub, i - 1) {
      assert s[1..][i - 1..i - 1 + |sub|] == s[i..i + |sub|];
    }
  }

  /** The scan finds `sub` exactly when some position holds it. */
  lemma {:induction false} ContainsIff(s: string, sub: string)
    ensures Contains(s, sub) <==> exists i :: OccursAt(s, sub, i)
    decreases |s|
  {
    if StartsWith(s, sub) {
      assert OccursAt(s, sub, 0);
    } else if |s| > 0 {
      ContainsIff(s[1..], sub);
      ShiftOccurrences(s, sub);
      if Contains(s[1..], sub) {
        var i :| OccursAt(s[1..], sub, i);
        assert OccursAt(s, sub, i + 1);
      }
    }
  }

  /** A witness position is enough to conclude `Contains`. */
  lemma ContainsAt(s: string, sub: string, i: int)
    requires OccursAt(s, sub, i)
    ensures Contains(s, sub)
  {
    ContainsIff(s, sub);
  }
}

=== FILE: utf8.dfy ===
/** UTF-8 as Python's strict `'utf-8'` codec: `str.encode('utf-8')` and `bytes.decode('utf-8')`. */
module Utf8 {
  import opened Wrappers

  /** A continuation byte `10xxxxxx`. */
  predicate IsContinuation(b: byte) {
    0x80 <= b < 0xC0
  }

  /** The six payload bits of a continuation byte. */
  function Payload(b: byte): int {
    b as int - 0x80
  }

  /** The one to four bytes of a code point. */
  function EncodeChar(c: char): (r: seq<byte>)
    ensures 1 <= |r| <= 4
  {
    var n := c as int;
    if n < 0x80 then [n]
    else if n < 0x800 then [0xC0 + n / 0x40, 0x80 + n % 0x40]
    else if n < 0x1_0000 then [0xE0 + n / 0x1000, 0x80 + (n / 0x40) % 0x40, 0x80 + n % 0x40]
    else [0xF0 + n / 0x4_0000, 0x80 + (n / 0x1000) % 0x40, 0x80 + (n / 0x40) % 0x40, 0x80 + n % 0x40]
  }

  /** `s.encode('utf-8')` */
  function Encode(s: string): seq<byte> {
    if |s| == 0 then [] else EncodeChar(s[0]) + Encode(s[1..])
  }

  /** Decodes the first code point of `bs`, returning it with the number of bytes it used.
      Overlong forms, surrogates and values beyond U+10FFFF are rejected, as in Python. */
  function DecodeFirst(bs: seq<byte>): (r: Option<(char, nat)>)
    requires |bs| > 0
    ensures r.Some? ==> 1 <= r.value.1 <= |bs|
  {
    var b0: int := bs[0];
    if b0 < 0x80 then Some((b0 as char, 1))
    else if 0xC2 <= b0 < 0xE0 && |bs| >= 2 && IsContinuation(bs[1]) then
      var n: int := (b0 - 0xC0) * 0x40 + Payload(bs[1]);
      Some((n as char, 2))
    else if 0xE0 <= b0 < 0xF0 && |bs| >= 3 && IsContinuation(bs[1]) && IsContinuation(bs[2]) then
      var n: int := (b0 - 0xE0) * 0x1000 + Payload(bs[1]) * 0x40 + Payload(bs[2]);
      if n < 0x800 || (0xD800 <= n < 0xE000) then None else Some((n as char, 3))
    else if 0xF0 <= b0 < 0xF5 && |bs| >= 4 && IsContinuation(bs[1]) && IsContinuation(bs[2])
      && IsContinuation(bs[3]) then
      var n: int := (b0 - 0xF0) * 0x4_0000 + Payload(bs[1]) * 0x1000 + Payload(bs[2]) * 0x40 + Payload(bs[3]);
      if n < 0x1_0000 || n >= 0x11_0000 then None else Some((n as char, 4))
    else None
  }

  /** `bs.decode('utf-8')`: `None` stands for the `UnicodeDecodeError`. */
  function Decode(bs: seq<byte>): Option<string>
    decreases |bs|
  {
    if |bs| == 0 then Some("")
    else
      match DecodeFirst(bs)
      case None => None
      case Some((c, k)) =>
        match Decode(bs[k..])
        case None => None
        case Some(rest) => Some([c] + rest)
  }

  /** The decoder reads back exactly the code point the encoder wrote, whatever follows it. */
  lemma DecodeFirstEncodeChar(c: char, rest: seq<byte>)
    ensures DecodeFirst(EncodeChar(c) + rest) == Some((c, |EncodeChar(c)|))
  {
    var n := c as int;
    var bs := EncodeChar(c) + rest;
    if n < 0x80 {
    } else if n < 0x800 {
      assert (n / 0x40) * 0x40 + n % 0x40 == n;
    } else if n < 0x1_0000 {
      var q := n / 0x40;
      assert n / 0x1000 == q / 0x40;
      assert (q / 0x40) * 0x1000 + (q % 0x40) * 0x40 + n % 0x40 == n;
    } else {
      var q := n / 0x40;
      var q2 := q / 0x40;
      assert n / 0x1000 == q2;
      assert n / 0x4_0000 == q2 / 0x40;
      assert (q2 / 0x40) * 0x4_0000 + (q2 % 0x40) * 0x1000 + (q % 0x40) * 0x40 + n % 0x40 == n;
    }
  }

  /** Strictness: whatever the decoder accepts is the one encoding of the character it
      yields, so no overlong or otherwise alternative form gets through. */
  lemma DecodeFirstCanonical(bs: seq<byte>)
    requires |bs| > 0 && DecodeFirst(bs).Some?
    ensures var (c, k) := DecodeFirst(bs).value;
      k <= 4 && bs[..k] == EncodeChar(c)
  {
    var k := DecodeFirst(bs).value.1;
    if k == 1 {
      assert bs[..1] == [bs[0]];
    } else if k == 2 {
      TwoByteCanonical(bs);
    } else if k == 3 {
      ThreeByteCanonical(bs);
    } else {
      FourByteCanonical(bs);
    }
  }

  /** The two-byte case of `DecodeFirstCanonical`. */
  lemma TwoByteCanonical(bs: seq<byte>)
    requires |bs| > 0 && DecodeFirst(bs).Some? && DecodeFirst(bs).value.1 == 2
    ensures bs[..2] == EncodeChar(DecodeFirst(bs).value.0)
  {
    var b0: int := bs[0];
    var n: int := (b0 - 0xC0) * 0x40 + Payload(bs[1]);
    assert DecodeFirst(bs).value.0 as int == n;
    assert n / 0x40 == b0 - 0xC0 && n % 0x40 == Payload(bs[1]);
    assert bs[..2] == [bs[0], bs[1]];
  }

  /** The three-byte case of `DecodeFirstCanonical`. */
  lemma ThreeByteCanonical(bs: seq<byte>)
    requires |bs| > 0 && DecodeFirst(bs).Some? && DecodeFirst(bs).value.1 == 3
    ensures bs[..3] == EncodeChar(DecodeFirst(bs).value.0)
  {
    var b0: int := bs[0];
    var n: int := (b0 - 0xE0) * 0x1000 + Payload(bs[1]) * 0x40 + Payload(bs[2]);
    assert DecodeFirst(bs).value.0 as int == n;
    assert n / 0x40 == (b0 - 0xE0) * 0x40 + Payload(bs[1]) && n % 0x40 == Payload(bs[2]);
    assert n / 0x1000 == b0 - 0xE0 && (n / 0x40) % 0x40 == Payload(bs[1]);
    assert bs[..3] == [bs[0], bs[1], bs[2]];
  }

  /** The four-byte case of `DecodeFirstCanonical`. */
  lemma FourByteCanonical(bs: seq<byte>)
    requires |bs| > 0 && DecodeFirst(bs).Some? && DecodeFirst(bs).value.1 == 4
    ensures bs[..4] == EncodeChar(DecodeFirst(bs).value.0)
  {
    var b0: int := bs[0];
    var q: int := (b0 - 0xF0) * 0x1000 + Payload(bs[1]) * 0x40 + Payload(bs[2]);
    var n: int := q * 0x40 + Payload(bs[3]);
    assert DecodeFirst(bs).value.0 as int == n;
    assert n / 0x40 == q && n % 0x40 == Payload(bs[3]);
    assert q / 0x40 == (b0 - 0xF0) * 0x40 + Payload(bs[1]) && q % 0x40 == Payload(bs[2]);
    assert n / 0x1000 == q / 0x40;
    assert n / 0x4_0000 == b0 - 0xF0;
    assert bs[..4] == [bs[0], bs[1], bs[2], bs[3]];
  }

  /** `s.encode('utf-8').decode('utf-8') == s` */
  lemma {:induction false} DecodeEncode(s: string)
    ensures Decode(Encode(s)) == Some(s)
    decreases |s|
  {
    if |s| > 0 {
      var head := EncodeChar(s[0]);
      DecodeFirstEncodeChar(s[0], Encode(s[1..]));
      assert Encode(s)[|head|..] == Encode(s[1..]);
      DecodeEncode(s[1..]);
      assert s == [s[0]] + s[1..];
    }
  }
}

=== FILE: wrappers.dfy ===
/** Failure-carrying values shared by every module of the model. */
module Wrappers {

  /** A value that may be absent (Python's `None`). */
  datatype Option<+T> = None | Some(value: T) {
    function GetOr(default: T): T {
      match this
      case Some(v) => v
      case None => default
    }
  }

  /** The outcome of an operation that may raise; `Err` carries the exception text. */
  datatype Result<+T> = Ok(value: T) | Err(message: string)

  /** One byte, as an integer in 0..255. */
  type byte = x: int | 0 <= x < 256
}
